=== FILE: README.md ===
# Content tools: a verified model of the data-preparation and retrieval core

This project models, in Dafny, the deterministic core of two small command-line
tool sets. One is written in Python and crawls and tokenizes a web site
(`jennifer`). The other is written in Deno/TypeScript; it prepares review and
blog datasets, embeds them, runs semantic search, writes blog posts from the
closest examples, summarizes k-means clusters and crawls a blog profile
(`tristan`). The model covers:

- the sentence chunker `split_into_many`, with its token budget, and the row loop of `tokenize_action` (`TokenizeAction`);
- the `loadAndInspectDataset` pipeline for the review dataset (`Dataset`), which
  - selects the columns and drops rows with nulls,
  - builds the `combined` column,
  - keeps the latest 2000 rows by `Time`,
  - counts tokens and filters to the budget,
  - keeps the last 1000 rows;
- its variant for crawled blog posts, together with the file names and the embedding column of the training action (`Training`);
- `getEmbedding`'s newline sanitiser and the regenerate-or-keep decision of `obtainDataSet` (`Embedding`);
- `dotProduct`, `norm` and `cosineSimilarity` over reals (`Vectors`);
- the top-3 semantic search and its display rewrite (`Search`);
- the blog action's prompt assembly, output naming and guards (`Blog`);
- the cluster score means, their ascending order, and the per-cluster report loop (`Clusters`);
- `removeDuplicates`, the link filter and the guards of the crawler action (`Crawler`);
- the LIFO frontier, the `seen` set and the file-name sanitiser of `crawl_action` (`Crawl`).

String helpers with JavaScript/Python semantics live in `Text`: first-occurrence `replace`, `includes`, `split`/`join`, polars `strip`, and `slice`. Sequence helpers for polars' `head`, `tail` and `filter` live in `Seqs`. `Option` and `Result` live in `Wrappers`.

Every external service or library appears as a function-typed parameter. Those parameters are:

- the tokenizer (`count`);
- the embedding provider;
- the chat model;
- `Math.sqrt`, constrained by `IsSqrt`: a non-negative square root;
- polars' `sort`, constrained by `Sorts`: it returns a permutation ordered by the sort key, and is not assumed to be stable;
- polars' `sample`, constrained by `SamplesFive`;
- `JSON.stringify`;
- the CSV reader;
- the page fetcher and the link extractor.

The user's answers to prompts, and file-existence checks, are parameters too. Effects are returned as outcome datatypes: which branch ended the action, what was written, and which texts were sent to the provider.

Where the design description and the code disagree, the model follows the code:

- A query or description is rejected only when it is empty or missing. It is not trimmed, so a blank query is searched.
- A zero vector gives `NaN` from `cosineSimilarity`. NaN rows are not excluded from ranking: polars ranks NaN above every number in a descending sort, so they come first.
- Ties in the similarity sort are not broken by row order.
- A missing embeddings cache is not rebuilt. `dataSetExists` throws outside the `try`.
- The review pipeline keeps the last `2 * top_n` rows (`tail`) of the ascending time sort, that is, the latest rows.
- The embedding column is written without any atomicity.
- A cluster with fewer than five rows makes `sample` throw. That throw ends the report loop.
- A rejected chat call for a cluster's theme is not turned into an empty theme. The call is awaited outside any `try`, so the rejection ends the whole report at that cluster.

## Model

| member | source | states |
|---|---|---|
| Text.FindFrom | tristan/actions/training/trainingAction.ts:103 | `indexOf` from a position: the result is an occurrence, no earlier occurrence exists, and `None` means there is no occurrence at all |
| Text.FindIsFirst | tristan/actions/embeddings/getEmbedding.ts:9 | an occurrence with no earlier one is the index `indexOf` returns |
| Text.ReplaceFirst | tristan/actions/embeddings/semanticTextSearchUsingEmbeddings.ts:51 | `replace` with a string pattern: an absent pattern leaves the text unchanged; a present one changes the length by the replacement's length minus the pattern's |
| Text.ReplaceFirstAt | tristan/actions/embeddings/semanticTextSearchUsingEmbeddings.ts:51 | `replace` rewrites the first occurrence and keeps everything before and after it |
| Text.ReplaceFirstPrefix | tristan/actions/embeddings/semanticTextSearchUsingEmbeddings.ts:51 | a pattern that starts the text is replaced there |
| Text.FindAtJoint | tristan/actions/embeddings/kMeansClustering.ts:76 | a pattern absent from `a` that starts `b` (and cannot overlap itself) is first found right after `a` in `a + b` |
| Text.NoOccurrenceAcross | tristan/actions/embeddings/kMeansClustering.ts:76 | a pattern absent from both sides, and sharing no first character with the middle, is absent from `a + m + b` |
| Text.Split | jennifer/tokenize_action.py:15 | Python `str.split`: at least one part, and no part contains the separator |
| Text.PrefixBeforeFirst | jennifer/tokenize_action.py:15 | the text before the first separator holds no separator |
| Text.JoinSplit | jennifer/tokenize_action.py:15 | joining the split parts with the separator gives back the text: every occurrence is a split point |
| Text.Strip | tristan/actions/embeddings/loadAndInspectDataset.ts:31-32 | polars `strip`: the infix between the start and end cut points, where everything cut off is whitespace and the result neither starts nor ends with whitespace |
| Text.StripIdempotent | tristan/actions/embeddings/loadAndInspectDataset.ts:31-32 | stripping twice equals stripping once |
| Text.Drop | jennifer/actions/crawl.py:42 | `[n:]`: the last `len - n` characters, empty when the text is shorter |
| Text.ReplaceChar | jennifer/actions/crawl.py:42 | replace-all of one character: every character of the result comes from the replacement or is an original character other than the replaced one; a text without that character is unchanged |
| Text.ReplaceCharSingle | jennifer/actions/crawl.py:42 | one character becomes the replacement exactly when it is the replaced character, and is kept otherwise |
| Text.ReplaceCharAppend | jennifer/actions/crawl.py:42 | replacing distributes over concatenation, so every occurrence is replaced and every other character kept, in order |
| Text.IntToString | tristan/actions/embeddings/kMeansClustering.ts:108 | the printed score is non-empty |
| Seqs.Tail | tristan/actions/embeddings/loadAndInspectDataset.ts:45 | polars `tail(n)`: the last `min(n, len)` rows |
| Seqs.Head | tristan/actions/embeddings/semanticTextSearchUsingEmbeddings.ts:47 | polars `head(n)`, and also `slice(0, n)` and `[:n]` on strings: the first `min(n, len)` elements |
| Seqs.Filter | tristan/actions/embeddings/loadAndInspectDataset.ts:65-66 | polars `filter`: no longer than the input; keeps exactly the rows satisfying the predicate |
| Seqs.FilterSubMultiset | tristan/actions/embeddings/loadAndInspectDataset.ts:65-66 | filtering never duplicates a row |
| Seqs.FilterOrdered | tristan/actions/embeddings/loadAndInspectDataset.ts:65-66 | filtering keeps a sorted order |
| Seqs.FilterAppend | tristan/actions/embeddings/loadAndInspectDataset.ts:65-66 | filtering distributes over concatenation |
| Seqs.FilterSingle | tristan/actions/embeddings/loadAndInspectDataset.ts:65-66 | a one-row frame keeps its row exactly when the row satisfies the predicate |
| Seqs.TailOrdered | tristan/actions/embeddings/loadAndInspectDataset.ts:45 | a tail of a sorted frame is sorted |
| Seqs.OrderedCut | tristan/actions/embeddings/loadAndInspectDataset.ts:45 | in a sorted frame, every row before a cut point precedes every row after it |
| Seqs.TailKeepsLast | tristan/actions/embeddings/loadAndInspectDataset.ts:45 | after any sort, every row that `tail` cuts off sorts before every row it keeps |
| Seqs.HeadKeepsFirst | tristan/actions/embeddings/semanticTextSearchUsingEmbeddings.ts:45-47 | after any sort, every row that `head` keeps sorts before every row it cuts off |
| Seqs.SumBounds | tristan/actions/embeddings/kMeansClustering.ts:28 | a sum of values in `[lo, hi]` lies in `[n*lo, n*hi]` |
| TokenizeAction.RenderAll | jennifer/tokenize_action.py:31 | one rendered chunk per sentence group, in order |
| TokenizeAction.SplitIntoMany | jennifer/tokenize_action.py:12-44 | the loop returns exactly the chunks of the reference run `Chunks`, which the lemmas below characterize |
| TokenizeAction.StepConsistent | jennifer/tokenize_action.py:30-42 | one iteration keeps every closed and open chunk within budget and keeps `tokens_so_far` equal to the cost of the open chunk |
| TokenizeAction.RunConsistent | jennifer/tokenize_action.py:25-42 | the whole loop keeps that invariant |
| TokenizeAction.StepCovers | jennifer/tokenize_action.py:37-42 | one iteration adds the sentence to the chunks exactly when its count is within budget |
| TokenizeAction.RunCoversFitting | jennifer/tokenize_action.py:25-42 | closed chunks followed by the open chunk are exactly the fitting sentences, in input order |
| TokenizeAction.RunClosedGrows | jennifer/tokenize_action.py:30-33 | chunks once emitted are never changed: the emitted list only grows at its end |
| TokenizeAction.ChunksWithinBudget | jennifer/tokenize_action.py:30-42 | in every emitted chunk, the counts plus one per sentence before the last fit the budget, and no sentence in it is oversized |
| TokenizeAction.ChunksArePrefixOfFitting | jennifer/tokenize_action.py:25-44 | the emitted sentences are a prefix of the fitting sentences; the rest is the open chunk, which is never emitted |
| TokenizeAction.TrailingSentenceDropped | jennifer/tokenize_action.py:44 | when the last sentence fits, it sits in the unemitted open chunk, so strictly fewer sentences are emitted than fit |
| TokenizeAction.FirstOversizedEmitsDot | jennifer/tokenize_action.py:30-33 | an oversized first sentence flushes the empty chunk as `"."` |
| TokenizeAction.SingleFittingSentenceGivesNothing | jennifer/tokenize_action.py:44 | a text that is one fitting sentence gives no chunk at all |
| TokenizeAction.ShortenRows | jennifer/tokenize_action.py:70-85 | the row loop returns the reference sequence `Shortened` |
| TokenizeAction.ShortenedKeepsSmallRows | jennifer/tokenize_action.py:84-85 | rows within `MAX_TOKENS` are kept whole, one for one and in order |
| TokenizeAction.ShortenedPieces | jennifer/tokenize_action.py:76-85 | every output text is either a row within budget or a chunk ending in `.` |
| TokenizeAction.Tokenize | jennifer/tokenize_action.py:47-90 | an existing tokens file without `rebuild` returns at once; a missing processed file raises, with the exact message; a missing text makes `encode` raise at line 68, before the row loop; otherwise the path is fixed and the rows are the shortened texts with their token counts |
| Dataset.Clean | tristan/actions/embeddings/loadAndInspectDataset.ts:24-35 | every row's `combined` follows the template over the stripped summary and text |
| Dataset.CleanLength | tristan/actions/embeddings/loadAndInspectDataset.ts:24 | `dropNulls` keeps one row per complete row |
| Dataset.CleanKeepsComplete | tristan/actions/embeddings/loadAndInspectDataset.ts:24 | every complete row survives `dropNulls` |
| Dataset.CleanFrom | tristan/actions/embeddings/loadAndInspectDataset.ts:14-24 | every surviving row comes from a complete input row, so no output column is null |
| Dataset.Recent | tristan/actions/embeddings/loadAndInspectDataset.ts:41-45 | the first cut keeps at most `2 * top_n` rows |
| Dataset.RecentAreClean | tristan/actions/embeddings/loadAndInspectDataset.ts:45 | the first cut keeps only cleaned rows built by the template |
| Dataset.RecentAreLatest | tristan/actions/embeddings/loadAndInspectDataset.ts:45 | every cleaned review cut away is no later than any review kept |
| Dataset.Counted | tristan/actions/embeddings/loadAndInspectDataset.ts:48-62 | `n_tokens` is the count of the row's own `combined` text |
| Dataset.CountAllTail | tristan/actions/embeddings/loadAndInspectDataset.ts:54-67 | counting commutes with `tail` |
| Dataset.CountAllFilter | tristan/actions/embeddings/loadAndInspectDataset.ts:54-66 | counting then filtering on `n_tokens` equals filtering on the count then counting |
| Dataset.FinalRow | tristan/actions/embeddings/loadAndInspectDataset.ts:65-66 | a row that passes the filter is within 8000 tokens, counts its own text, follows the template, and comes from the first cut |
| Dataset.FinalRows | tristan/actions/embeddings/loadAndInspectDataset.ts:65-67 | every row of the final tail is such a row |
| Dataset.LoadAndInspectDataset | tristan/actions/embeddings/loadAndInspectDataset.ts:6-72 | the result is the kept reviews (`Kept`) with `Time` dropped and `n_tokens` added, one row each and in order; its size is the number of recent rows within budget, capped at 1000; each row has `n_tokens <= 8000`, `n_tokens` equal to the count of its `combined`, and a template-built `combined` |
| Dataset.KeptInTimeOrder | tristan/actions/embeddings/loadAndInspectDataset.ts:45-67 | the kept reviews, and so the rows of the result, are in ascending `Time` order |
| Dataset.KeptAreLatest | tristan/actions/embeddings/loadAndInspectDataset.ts:65-67 | every recent review within budget that the final `tail` cuts away is no later than any kept review |
| Training.CleanPosts | tristan/actions/training/trainingAction.ts:26-37 | every post's `combined` follows the template over the stripped title and text |
| Training.CleanPostsLength | tristan/actions/training/trainingAction.ts:26 | one post per complete row |
| Training.CleanPostsKeepComplete | tristan/actions/training/trainingAction.ts:26 | every complete row survives |
| Training.CleanPostsFrom | tristan/actions/training/trainingAction.ts:23-26 | every post comes from a complete row: url, title and text are never null |
| Training.CleanPostsAppend | tristan/actions/training/trainingAction.ts:26-37 | cleaning distributes over concatenation, so row order is kept |
| Training.CountedPost | tristan/actions/training/trainingAction.ts:50-58 | `n_tokens` is the count of the post's own `combined` |
| Training.SurvivorPrepared | tristan/actions/training/trainingAction.ts:61-62 | a filtered post is within 8000 tokens, counts its own text, follows the template, and comes from a complete input row |
| Training.SurvivorsPrepared | tristan/actions/training/trainingAction.ts:61-63 | every post of the final tail is such a post |
| Training.LoadBlogData | tristan/actions/training/trainingAction.ts:14-68 | exactly the last `min(1000, S)` of the S posts that pass the token filter, in input order; each prepared from a complete input row within 8000 tokens; there is no time sort and no first cut |
| Training.SurvivorsSingle | tristan/actions/training/trainingAction.ts:14-63 | one input row passes exactly when it is complete and its `combined` text is within 8000 tokens, and then as its prepared post |
| Training.SurvivorsAppend | tristan/actions/training/trainingAction.ts:14-63 | the posts passing the filter from a concatenation are those of each part, in order, so the input order is kept |
| Training.FittingPostSurvives | tristan/actions/training/trainingAction.ts:61-62 | every complete row within budget passes the filter |
| Training.AllFittingPostsKept | tristan/actions/training/trainingAction.ts:61-63 | when at most 1000 posts pass the filter, every complete row within budget is in the result |
| Training.OrDefault | tristan/actions/training/trainingAction.ts:137 | `fileName \|\| "blog_data"`: a missing or empty name gives `blog_data`, and any other name is kept |
| Training.InputCsvName | tristan/actions/training/trainingAction.ts:103 | the input name contains `.csv`; a name containing `.csv` anywhere is kept, and any other name gets `.csv` appended |
| Training.InputCsvNameExample | tristan/actions/training/trainingAction.ts:103 | `posts.csv.bak` is kept as is, because the check is `includes` and not `endsWith` |
| Training.EmbeddingsCsvName | tristan/actions/training/trainingAction.ts:104-105 | the output name ends in `_with_embeddings.csv`; it is the name with its first `.csv` removed, or the whole name when there is none |
| Training.EmbeddingsOfInputName | tristan/actions/training/trainingAction.ts:103-105 | for a name without `.csv`, the output name is the name plus the suffix |
| Training.EmbeddingsCsvNameExample | tristan/actions/training/trainingAction.ts:104-105 | `a.csv.csv` loses only its first `.csv` |
| Training.TrainingAction | tristan/actions/training/trainingAction.ts:70-141 | only `"rag"` generates; the input and output names derive from the file name or `blog_data`; the column has one stringified embedding per prepared post, in row order |
| Embedding.Sanitize | tristan/actions/embeddings/getEmbedding.ts:9 | the length is kept; text without `\n` is unchanged; otherwise the first `\n` becomes a space and every other character is kept, later newlines included |
| Embedding.SanitizeExample | tristan/actions/embeddings.ts:20 | `"a\nb\nc"` is sent as `"a b\nc"` |
| Embedding.ObtainDataSet | tristan/actions/embeddings/obtainDataSet.ts:83-120 | a missing cache throws before any load; a declined regeneration returns without loading or sending anything; a regeneration happens exactly when the cache exists, the user agrees and the load succeeds; it sends the sanitized rows, then `"Hi"`, and writes one embedding per row, each the stringified provider answer for the text sent for that row; a load error is caught |
| Embedding.RegeneratesPreparedReviews | tristan/actions/embeddings/obtainDataSet.ts:111-113 | a regeneration over the output of `loadAndInspectDataset()` stores one embedding per prepared review, at most 1000, in order, each the provider's answer for that review's sanitized `combined` text |
| Vectors.DotProduct | tristan/utilities/cosineSimilarity.ts:1-7 | fails with `"Vectors must be the same length"` exactly when the lengths differ; empty vectors give 0 |
| Vectors.SumSquaresIsDot | tristan/utilities/cosineSimilarity.ts:9-11 | the fold inside `norm` is `dotProduct(v, v)` |
| Vectors.SumSquaresNonNegative | tristan/utilities/cosineSimilarity.ts:10 | the fold inside `norm` is never negative |
| Vectors.SumSquaresOfZeros | tristan/utilities/cosineSimilarity.ts:10 | a zero vector's fold is 0 |
| Vectors.Norm | tristan/utilities/cosineSimilarity.ts:9-11 | a non-negative number whose square is `dotProduct(v, v)`; zero vectors give 0 |
| Vectors.DotSymmetric | tristan/utilities/cosineSimilarity.ts:6 | `dotProduct(a, b) == dotProduct(b, a)` |
| Vectors.CauchySchwarz | tristan/utilities/cosineSimilarity.ts:6-10 | the square of the dot product is at most the product of the two sums of squares |
| Vectors.CosineSimilarity | tristan/utilities/cosineSimilarity.ts:13-19 | propagates the length error; is `NaN` exactly when a norm is 0 (so for every zero vector); otherwise the value times `normA * normB` is the dot product, and it lies in `[-1, 1]` |
| Vectors.CosineBound | tristan/utilities/cosineSimilarity.ts:18 | `dot / (normA * normB)` lies in `[-1, 1]` whenever the denominator is nonzero |
| Vectors.CosineSymmetric | tristan/utilities/cosineSimilarity.ts:13-19 | `cosineSimilarity(a, b) == cosineSimilarity(b, a)`, errors and `NaN` included |
| Vectors.CosineSelf | tristan/utilities/cosineSimilarity.ts:13-19 | a vector against itself gives 1, or `NaN` for a zero vector |
| Vectors.CosineExamples | tristan/utilities/cosineSimilarity.ts:13-19 | orthogonal unit vectors give 0; a zero vector gives `NaN`; unequal lengths give the error |
| Search.DropTitle | tristan/actions/embeddings/semanticTextSearchUsingEmbeddings.ts:51 | the first rewrite removes the template's leading `Title: ` |
| Search.JoinContent | tristan/actions/embeddings/semanticTextSearchUsingEmbeddings.ts:51 | when the title does not contain `; Content:`, the second rewrite turns the template's separator into `:` followed by two spaces |
| Search.DisplayOfTemplate | tristan/actions/embeddings/semanticTextSearchUsingEmbeddings.ts:50-52 | a template text `Title: T; Content: X` is displayed as `T:  X` |
| Search.DisplayOfCombine | tristan/actions/embeddings/semanticTextSearchUsingEmbeddings.ts:50-52 | a `combined` built by the dataset pipeline is displayed as stripped title, `:  `, stripped body |
| Search.Similarities | tristan/actions/embeddings/semanticTextSearchUsingEmbeddings.ts:33-44 | fails with the length error exactly when some row's embedding length differs from the query's; otherwise one similarity per row, aligned with the rows |
| Search.Top | tristan/actions/embeddings/semanticTextSearchUsingEmbeddings.ts:45-47 | `min(3, N)` rows drawn from the input, in non-increasing similarity (NaN first); every row left out ranks no higher than every row kept |
| Search.TopMatches | tristan/actions/embeddings/semanticTextSearchUsingEmbeddings.ts:33-52 | the length error exactly when the lengths disagree; otherwise `min(3, N)` display texts of the top rows |
| Search.SemanticTextSearch | tristan/actions/embeddings/semanticTextSearchUsingEmbeddings.ts:9-58 | a missing or empty query is skipped with no embedding call (blank queries are not); otherwise the sanitized query is embedded and the top matches are returned |
| Blog.ContextAppend | tristan/actions/blog/blogAction.ts:69 | the context is the related texts joined by `\n\n---\n\n`: one more text adds one separator and the text |
| Blog.UserMessage | tristan/actions/blog/blogAction.ts:80 | the message is `Examples: `, the context, the separator and `Blog Post Title: `, the prompt, then `\nBlog Post:`, and each part can be read back from its position |
| Blog.BlogSearch | tristan/actions/blog/blogAction.ts:12-60 | with no guard on the prompt, fails exactly on a length mismatch with the prompt's embedding; otherwise gives the display texts of the `min(3, N)` top-ranked rows (`Search.Top`) for the embedding of the sanitized prompt |
| Blog.BlogAction | tristan/actions/blog/blogAction.ts:193-246 | an empty description cancels before any search; the embeddings file is named after the file name or `blog_data`; the search fails exactly when it fails, with its error; after a successful search the post is saved at `description + ".md"` exactly when the chat returned a non-empty one for the system message and the user message built from the search results, and otherwise nothing is saved |
| Clusters.Mean | tristan/actions/embeddings/kMeansClustering.ts:27-30 | the mean times the group size is the sum of the group's scores |
| Clusters.MeanBetween | tristan/actions/embeddings/kMeansClustering.ts:27-30 | a group's mean lies between bounds on its scores |
| Clusters.SummaryTable | tristan/actions/embeddings/kMeansClustering.ts:32-35 | the groups with their means, as a permutation of them, in ascending order of mean |
| Clusters.SummaryMeansBetween | tristan/actions/embeddings/kMeansClustering.ts:24-34 | every mean in the summary lies between the minimum and maximum score |
| Clusters.ReviewTextOfTemplate | tristan/actions/embeddings/kMeansClustering.ts:76 | on a template text, only `Title: ` goes; `\n\nContent: ` never matches, so `; Content: ` stays |
| Clusters.Theme | tristan/actions/embeddings/kMeansClustering.ts:98 | only the first newline of the reply is removed; a reply without one is printed as is |
| Clusters.Excerpt | tristan/actions/embeddings/kMeansClustering.ts:112-115 | a prefix of the text of at most 70 characters, the whole text when it is shorter |
| Clusters.ReviewLine | tristan/actions/embeddings/kMeansClustering.ts:106-117 | the printed line ends with the excerpt and is bounded by score, separators, summary and 70 characters |
| Clusters.InCluster | tristan/actions/embeddings/kMeansClustering.ts:70 | exactly the rows of cluster `i` |
| Clusters.SectionOf | tristan/actions/embeddings/kMeansClustering.ts:71-118 | a cluster's section carries its id and the theme the chat gives for the prompt over the rewritten sampled texts, then one line per sampled row, in sample order, each ending with that row's 70-character excerpt |
| Clusters.PrintReviews | tristan/actions/embeddings/kMeansClustering.ts:105-118 | the inner loop prints the review lines of the five samples |
| Clusters.ReportCluster | tristan/actions/embeddings/kMeansClustering.ts:70-118 | a cluster with fewer than five rows throws in `sample`; otherwise its section |
| Clusters.ReportedAppend | tristan/actions/embeddings/kMeansClustering.ts:69 | appending the next cluster's section keeps the sections in cluster-id order |
| Clusters.ClusterReport | tristan/actions/embeddings/kMeansClustering.ts:41-124 | nothing when declined; otherwise clusters 0 to 3, each once and in order, stopping at a cluster among 0 to 3 whose sampling throws; chat rejections are not modelled |
| Crawler.RemoveDuplicates | tristan/actions/crawler/crawlerAction.ts:9-11 | no repeated element, and the same set of elements as the input |
| Crawler.RemoveDuplicatesInFirstOrder | tristan/actions/crawler/crawlerAction.ts:10 | the output is ordered by first occurrence in the input |
| Crawler.RemoveDuplicatesOfDistinct | tristan/actions/crawler/crawlerAction.ts:10 | a sequence without repeats is unchanged |
| Crawler.RemoveDuplicatesIdempotent | tristan/actions/crawler/crawlerAction.ts:10 | removing duplicates twice equals removing them once |
| Crawler.RemoveDuplicatesExample | tristan/actions/crawler/crawlerAction.ts:10 | `[b, a, b, c, a]` becomes `[b, a, c]` |
| Crawler.KeptLinkNonEmpty | tristan/actions/crawler/crawlerAction.ts:28-31 | a kept link is never empty, so `filter(Boolean)` drops only the nulls |
| Crawler.KeptLinks | tristan/actions/crawler/crawlerAction.ts:24-31 | an anchor without `href` throws; otherwise the kept links are exactly the hrefs that contain the profile URL and `source` |
| Crawler.CrawlProfile | tristan/actions/crawler/crawlerAction.ts:18-35 | the same failure; otherwise the kept links without repeats, and a link is in the result exactly when it passes the filter |
| Crawler.CrawlPost | tristan/actions/crawler/crawlerAction.ts:37-48 | a missing or empty URL gives `{}` without a request; any other URL gives its page's title and text |
| Crawler.CrawlerAction | tristan/actions/crawler/crawlerAction.ts:52-88 | an empty profile ends it first; a profile error propagates; an empty output name discards the posts; otherwise one post per found link is written to `name.csv` |
| Crawl.SanitizedName | jennifer/actions/crawl.py:42 | the file name has at most 64 characters, no `/` and no `:` |
| Crawl.SanitizedNameCollides | jennifer/actions/crawl.py:42 | `https://a/b` and `https://a__b` share a file name, so one page overwrites the other |
| Crawl.Expand | jennifer/actions/crawl.py:59-62 | the appended links are unseen, admitted by `must_include` and taken from the page, with no repeats; `seen` grows by exactly them; every admitted link of the page ends up seen |
| Crawl.ExpandAppend | jennifer/actions/crawl.py:59-62 | links are taken in page order: expanding two runs of links appends the first run's links, then the second's given what the first made seen |
| Crawl.QueueLinks | jennifer/actions/crawl.py:59-62 | the inner loop appends exactly the links `Expand` selects and updates `seen` to match |
| Crawl.StepIsLifo | jennifer/actions/crawl.py:39 | the popped URL is the last queued one, and the next one popped is the last link just appended |
| Crawl.StepKeepsSeen | jennifer/actions/crawl.py:17-62 | `seen` stays the set of queued or visited URLs; every step grows `seen` or shrinks the queue |
| Crawl.StepKeepsNoRepeats | jennifer/actions/crawl.py:60-62 | no URL is queued twice or visited twice |
| Crawl.StepKeepsStart | jennifer/actions/crawl.py:17-60 | the start URL is visited first and every other URL passed the filter |
| Crawl.StepKeepsLinksSeen | jennifer/actions/crawl.py:56-62 | every admitted link of every fetched page is seen; a page whose fetch failed adds nothing |
| Crawl.StepKeepsInvariant | jennifer/actions/crawl.py:38-62 | one iteration keeps the loop invariant and makes progress |
| Crawl.EmptyQueueIsClosed | jennifer/actions/crawl.py:38 | when the queue is empty, every admitted link of every fetched page has been visited |
| Crawl.FinishedIsCrawlOrder | jennifer/actions/crawl.py:38-62 | a finished loop visited its URLs in crawl order, and `seen` is exactly the visited set |
| Crawl.Crawl | jennifer/actions/crawl.py:36-62 | the loop is a run of steps from `([url], {url})` to an empty queue, keeps the invariant, and writes one page file per visited URL (empty on a connection error) |
| Crawl.CrawlAction | jennifer/actions/crawl.py:13-62 | an existing directory without `rebuild` returns at once; otherwise the directory is cleared when it existed and the crawl visits its URLs in crawl order, writing their files |

## Left out

- IEEE-754 arithmetic is not modelled. Vectors are sequences of `real`, with no rounding, overflow or infinities. `NaN` appears only as the explicit `Number.NaN` result of a zero denominator, so a zero vector is a case the model handles rather than one it excludes.
- `Math.sqrt` is a parameter that returns a non-negative square root.
- `Vectors.CosineSelf`: it states 1 exactly, where floating point gives a value close to 1.
- `Search.Top`: NaN is ranked above every number, as polars orders NaN in a descending sort. Rows with equal similarity may come out in any order, because polars' sort is not assumed stable.
- The tokenizer, the embedding provider, the chat model, polars' `sample`, `ml-kmeans` and `groupBy` are inputs. The cluster of each row and the row-index groups arrive as data, and the seed 42 has no meaning in the model.
- CSV and JSON reading, writing and parsing are left out. Rows arrive already projected onto the selected columns, with `None` for a null cell. `JSON.stringify` is a parameter. A written file is returned as its name and contents.
- `Promise.all` is modelled as an ordered, sequential map. The un-awaited `getEmbeddingsAndSaveToCsv` call in obtainDataSet.ts:113 is not modelled: the column is taken to be computed before the `"Hi"` embedding, and its write errors are not caught.
- `Clusters.ClusterReport`: a rejected chat call (kMeansClustering.ts:81) is not modelled. The source would end the report at that cluster. The same holds for `Blog.BlogAction` (the embedding call at blogAction.ts:31 and the chat call at blogAction.ts:70), `Search.SemanticTextSearch` (the embedding call at semanticTextSearchUsingEmbeddings.ts:32) and `Training.TrainingAction` (the embedding calls at trainingAction.ts:79). In the model the provider and the chat model always answer. In the source a rejection ends the action with an unhandled error.
- `Embedding.ObtainDataSet`: it does not model an embedding-provider failure. Such a failure would be an unhandled rejection of the un-awaited call.
- `Crawl.CrawlAction`: termination needs a finite `universe` of URLs that holds the start URL and every link that `must_include` admits on a page of the universe. Links the filter rejects may lead anywhere. The source loop itself may not end when infinitely many admitted links are reachable.
- `Crawl.CrawlAction`: only `ConnectionError` from `requests.get` is modelled, as the `None` of the fetcher (crawl.py:46-57). Any other exception, such as `MissingSchema`, `InvalidSchema` or `TooManyRedirects`, ends `crawl_action` with the current page file left empty. So does any failure of `get_domain_hyperlinks`, which runs outside the `try` (crawl.py:59). In the model the link extractor always answers.
- `Crawler.CrawlerAction`: a rejected `crawler.send` is not modelled. In `crawlProfile` (crawlerAction.ts:19) it ends the action before any post is fetched. In `crawlPost` (crawlerAction.ts:41) it rejects the `Promise.all` at crawlerAction.ts:67 before the output-name prompt. Either way nothing is written. In the model the page function always answers.
- `TokenizeAction.Tokenize`: a missing text (`NaN` from `read_csv`) is `None`. The `TypeError` that `encode` raises on it is the `EncodeFailed` outcome, without its message.
- The fetched text is written as is. The JavaScript warning printed at crawl.py:52-53 is console output and is not modelled.
- `extract_domain`, `urlparse(url).netloc`, `get_domain_hyperlinks`, `requests`/BeautifulSoup and `npm:crawler` are not modelled. A page, its links and its title and text are function parameters.
- `resolve()` path prefixes are left out. File names are modelled relative to the output directory.
- Editor launching, the `is*Installed` checks, spinners, colours and console output are left out, and so is the `"-".repeat(100)` divider.
- `loadAndInspectDataset` appears three times: in loadAndInspectDataset.ts, obtainDataSet.ts:15-81 and embeddings.ts:45-111. The copies are identical, so the model has one `Dataset.LoadAndInspectDataset`. The `obtainDataSet` and `semanticTextSearchUsingEmbeddings` of embeddings.ts are the same as the split files, apart from the synchronous `confirm`, and are modelled once.
- The visualization files embedding-vis-worker.ts and visualizingEmbeddings2D.ts are not part of this model. They hold a t-SNE computation over floats, a worker channel and browser I/O.
- main.ts, haiku.ts and embeddingsAction.ts are not part of this model. They hold command wiring and provider calls with no local logic.
- jennifer/actions/embeddings.py is not part of this model. It holds file checks around provider calls and pandas I/O.
- Strings are sequences of characters, with no UTF-16 code units. `slice(0, 70)` and `[:64]` therefore count characters.

=== FILE: blog.dfy ===
/** The blog action: search the embeddings of earlier posts for the three
    closest to the requested title, join them into the examples of a chat
    prompt, and save the generated post as markdown.  The chat model is a
    function from the system and user messages to the content it returns,
    `None` for a missing one; the CSV reader is a function `read` from a file
    name to its rows; editor launching is not modelled. */
module Blog {
  import opened Wrappers
  import opened Text
  import opened Seqs
  import opened Vectors
  import opened Embedding
  import opened Search
  import opened Training

  /** The separator between example posts in the prompt. */
  const Separator := "\n\n---\n\n"

  /** The system message of `generateBlogPost`. */
  const SystemMessage :=
    "You will be given a list of example blog posts. Given a new blog post title, generate a new blog post for that title in markdown format."

  /** `relatedData.join("\n\n---\n\n")`. */
  function Context(related: seq<string>): string
  {
    Join(related, Separator)
  }

  /** Joining one more text appends the separator and the text. */
  lemma {:induction false} ContextAppend(related: seq<string>, text: string)
    requires related != []
    ensures Context(related + [text]) == Context(related) + Separator + text
  {
    if |related| == 1 {
      var two := [related[0], text];
      assert related + [text] == two;
      assert two[1..] == [text];
      assert Join(two, Separator) == related[0] + Separator + Join([text], Separator);
    } else {
      assert (related + [text])[1..] == related[1..] + [text];
      ContextAppend(related[1..], text);
    }
  }

  /** The user message of `generateBlogPost`: the examples, a separator, the
      title and the cue for the post. */
  function UserMessage(context: string, prompt: string): (r: string)
    ensures |r| == 10 + |context| + 24 + |prompt| + 11
    ensures r[..10] == "Examples: " && r[10..10 + |context|] == context
    ensures r[10 + |context|..10 + |context| + 24] == Separator + "Blog Post Title: "
    ensures r[10 + |context| + 24..|r| - 11] == prompt
    ensures r[|r| - 11..] == "\nBlog Post:"
  {
    var head, middle, rest := "Examples: " + context, Separator + "Blog Post Title: ", prompt + "\nBlog Post:";
    SliceOfSuffix(head, middle + rest, 0, |middle|);
    assert (middle + rest)[..|middle|] == middle;
    assert head + (middle + rest) == head + middle + rest;
    head + middle + rest
  }

  /** `semanticTextSearchUsingEmbeddings(prompt, path, openai, verbose)` of
      the blog action: the search of the embeddings read from `path` with the
      prompt's embedding, with no guard on the prompt. */
  function BlogSearch(prompt: string, rows: seq<EmbeddedRow>, provider: string -> Vector,
                      sort: seq<Scored> -> seq<Scored>, sqrt: real -> real): (r: Result<seq<string>>)
    requires IsSqrt(sqrt) && Sorts(sort, RanksAbove)
    ensures r.Failure? <==> !SameLengths(rows, provider(Sanitize(prompt)))
    ensures r.Success? ==>
              && |r.value| == (if |rows| <= TopK then |rows| else TopK)
              && r.value == DisplayAll(Top(Similarities(rows, provider(Sanitize(prompt)), sqrt).value, sort))
  {
    TopMatches(rows, GetEmbedding(provider, prompt), sort, sqrt)
  }

  /** How the blog action ends. */
  datatype BlogOutcome =
    | Cancelled
    | SearchFailed(error: string)
    | NoPost(searched: string)
    | Saved(searched: string, path: string, content: string)

  /** `blogAction({ verbose, fileName })`: an empty description ends it before
      any search; the search reads the embeddings file named after
      `fileName`, or `blog_data` when it is missing or empty; a missing or
      empty post is not saved; a post is saved under the description with
      `.md` appended. */
  function BlogAction(description: string, fileName: Option<string>, read: string -> seq<EmbeddedRow>,
                      provider: string -> Vector, sort: seq<Scored> -> seq<Scored>, sqrt: real -> real,
                      chat: (string, string) -> Option<string>): (r: BlogOutcome)
    requires IsSqrt(sqrt) && Sorts(sort, RanksAbove)
    ensures r.Cancelled? <==> description == ""
    ensures var path := EmbeddingsCsvName(OrDefault(fileName));
            var related := BlogSearch(description, read(path), provider, sort, sqrt);
            && (r.SearchFailed? <==> description != "" && related.Failure?)
            && (r.SearchFailed? ==> r.error == related.error)
            && (description != "" && related.Success? ==>
                  var post := chat(SystemMessage, UserMessage(Context(related.value), description));
                  if post.Some? && post.value != "" then r == Saved(path, description + ".md", post.value)
                  else r == NoPost(path))
  {
    if description == "" then Cancelled
    else
      var path := EmbeddingsCsvName(OrDefault(fileName));
      match BlogSearch(description, read(path), provider, sort, sqrt)
      case Failure(e) => SearchFailed(e)
      case Success(related) =>
        match chat(SystemMessage, UserMessage(Context(related), description))
        case None => NoPost(path)
        case Some(post) => if post == "" then NoPost(path) else Saved(path, description + ".md", post)
  }
}

=== FILE: clusters.dfy ===
/** The cluster summary of the embeddings action: the mean review score of
    each k-means cluster, the clusters ordered by that mean, and the report
    printed for each cluster (a theme suggested by the chat model from five
    sampled reviews, then the five reviews, each cut to 70 characters).
    k-means itself, polars' `groupBy` and `sample`, and the chat model are
    not modelled: the cluster of each row is a column of the rows, groups are
    given as lists of row indices, and sampling and chat are functions. */
module Clusters {
  import opened Wrappers
  import opened Text
  import opened Seqs
  import opened Vectors
  import opened Search

  /** `clusters`: the number of k-means clusters. */
  const ClusterCount: nat := 4
  /** `rev_per_cluster`: the reviews sampled per cluster. */
  const ReviewsPerCluster: nat := 5
  /** The length each printed review text is cut to. */
  const ExcerptLength: nat := 70

  // ---------------------------------------------------------------------
  // Group means

  /** Row indices that all address a score. */
  predicate InRange(group: seq<nat>, scores: seq<real>)
  {
    forall k :: 0 <= k < |group| ==> group[k] < |scores|
  }

  /** `group.map((index) => Number(scores[index]))`. */
  function Pick(scores: seq<real>, group: seq<nat>): seq<real>
    requires InRange(group, scores)
  {
    seq(|group|, k requires 0 <= k < |group| => scores[group[k]])
  }

  /** The mean score of a group: the sum of its scores over its size.  A
      group of `groupBy` is never empty. */
  function Mean(scores: seq<real>, group: seq<nat>): (r: real)
    requires InRange(group, scores) && group != []
    ensures r * |group| as real == Sum(Pick(scores, group))
  {
    var n := |group| as real;
    DivideTimes(Sum(Pick(scores, group)), n);
    Sum(Pick(scores, group)) / n
  }

  /** The mean of a group lies between any lower and any upper bound of its
      scores, hence between its least and its greatest score. */
  lemma MeanBetween(scores: seq<real>, group: seq<nat>, lo: real, hi: real)
    requires InRange(group, scores) && group != []
    requires forall k :: 0 <= k < |group| ==> lo <= scores[group[k]] <= hi
    ensures lo <= Mean(scores, group) <= hi
  {
    var picked := Pick(scores, group);
    var n := |group| as real;
    var m := Mean(scores, group);
    SumBounds(picked, lo, hi);
    assert n * (m - lo) == m * n - n * lo;
    PositiveFactor(n, m - lo);
    assert n * (hi - m) == n * hi - m * n;
    PositiveFactor(n, hi - m);
  }

  /** A row of the summary table: a cluster, its row indices and its mean
      score. */
  datatype ClusterMean = ClusterMean(cluster: int, group: seq<nat>, mean: real)

  /** Rows ordered by ascending mean, as `sort("mean")` orders them. */
  predicate ByMean(x: ClusterMean, y: ClusterMean)
  {
    x.mean <= y.mean
  }

  /** The groups of `groupBy("Cluster").groups()`: one non-empty list of row
      indices per cluster. */
  predicate IsGrouping(clusters: seq<int>, groups: seq<seq<nat>>, scores: seq<real>)
  {
    |clusters| == |groups| && forall g :: 0 <= g < |groups| ==> groups[g] != [] && InRange(groups[g], scores)
  }

  /** The `mean` column next to the groups, before the sort. */
  function Means(clusters: seq<int>, groups: seq<seq<nat>>, scores: seq<real>): seq<ClusterMean>
    requires IsGrouping(clusters, groups, scores)
  {
    seq(|groups|, g requires 0 <= g < |groups| => ClusterMean(clusters[g], groups[g], Mean(scores, groups[g])))
  }

  /** The table printed by `findCludtersUsingKMeans`: every cluster with the
      mean of its group, ordered by ascending mean. */
  function SummaryTable(clusters: seq<int>, groups: seq<seq<nat>>, scores: seq<real>,
                        sort: seq<ClusterMean> -> seq<ClusterMean>): (r: seq<ClusterMean>)
    requires IsGrouping(clusters, groups, scores) && Sorts(sort, ByMean)
    ensures Ordered(r, ByMean)
    ensures multiset(r) == multiset(Means(clusters, groups, scores))
    ensures forall x :: x in r ==> x.group != [] && InRange(x.group, scores) && x.mean == Mean(scores, x.group)
  {
    var means := Means(clusters, groups, scores);
    forall x | x in sort(means)
      ensures x in means
    {
      assert x in multiset(sort(means));
    }
    sort(means)
  }

  /** When every score lies between `lo` and `hi` (review scores run from 1
      to 5), so does every mean of the summary table. */
  lemma SummaryMeansBetween(clusters: seq<int>, groups: seq<seq<nat>>, scores: seq<real>,
                            sort: seq<ClusterMean> -> seq<ClusterMean>, lo: real, hi: real)
    requires IsGrouping(clusters, groups, scores) && Sorts(sort, ByMean)
    requires forall k :: 0 <= k < |scores| ==> lo <= scores[k] <= hi
    ensures forall x :: x in SummaryTable(clusters, groups, scores, sort) ==> lo <= x.mean <= hi
  {
    forall x | x in SummaryTable(clusters, groups, scores, sort)
      ensures lo <= x.mean <= hi
    {
      MeanBetween(scores, x.group, lo, hi);
    }
  }

  // ---------------------------------------------------------------------
  // The per-cluster report

  /** A row of the embeddings file as the report reads it. */
  datatype Row = Row(cluster: int, score: int, summary: string, text: string, combined: string)

  /** `sample({ n: 5, seed: 42 })` behaves as polars' sampling without
      replacement, on the `combined` column as on the frame: it throws when
      there are fewer than five entries and otherwise returns five of them. */
  ghost predicate SamplesFive<T(!new)>(sample: seq<T> -> Option<seq<T>>)
  {
    forall s :: (sample(s).Some? <==> |s| >= ReviewsPerCluster)
                && (sample(s).Some? ==> |sample(s).value| == ReviewsPerCluster
                                        && multiset(sample(s).value) <= multiset(s))
  }

  /** `String(text).replace("Title: ", "").replace("\n\nContent: ", ": ")`. */
  function ReviewText(combined: string): string
  {
    ReplaceFirst(ReplaceFirst(combined, "Title: ", ""), "\n\nContent: ", ": ")
  }

  /** The second rewrite looks for a pattern the `combined` template never
      writes: on a template text whose title and body do not contain it,
      only the leading `"Title: "` goes and `"; Content: "` stays. */
  lemma ReviewTextOfTemplate(t: string, x: string)
    requires !Contains(t, "\n\nContent: ") && !Contains(x, "\n\nContent: ")
    ensures ReviewText("Title: " + t + "; Content: " + x) == t + "; Content: " + x
  {
    DropTitle(t, x);
    NoOccurrenceAcross(t, "; Content: ", x, "\n\nContent: ");
  }

  /** The reviews of the prompt: the sampled `combined` texts, rewritten,
      one per line. */
  function Reviews(sampled: seq<string>): string
  {
    Join(seq(|sampled|, k requires 0 <= k < |sampled| => ReviewText(sampled[k])), "\n")
  }

  /** The user message asking for a cluster's theme. */
  function ThemePrompt(reviews: string): string
  {
    "What do the following customer reviews have in common?\n\nCustomer reviews:\n\"\"\"\n"
      + reviews + "\n\"\"\"\n\nTheme:"
  }

  /** The printed theme: the reply with its first newline removed, or
      `undefined` when the reply has no content. */
  function Theme(content: Option<string>): (r: string)
    ensures content.Some? && Contains(content.value, "\n") ==> |r| == |content.value| - 1
    ensures content.Some? && !Contains(content.value, "\n") ==> r == content.value
    ensures content.Some? && Find(content.value, "\n").Some? ==>
              var i := Find(content.value, "\n").value;
              r == content.value[..i] + content.value[i + 1..]
  {
    match content
    case None => "undefined"
    case Some(c) => ReplaceFirst(c, "\n", "")
  }

  /** `slice(0, 70)` of a review text: a prefix of at most 70 characters. */
  function Excerpt(text: string): (r: string)
    ensures |r| <= ExcerptLength && |r| <= |text| && r == text[..|r|]
    ensures |text| <= ExcerptLength ==> r == text
  {
    Head(text, ExcerptLength)
  }

  /** One printed review: `[score, ", ", summary, ": ", excerpt].join("")`. */
  function ReviewLine(x: Row): (r: string)
    ensures |r| <= |IntToString(x.score)| + 2 + |x.summary| + 2 + ExcerptLength
    ensures |r| >= |Excerpt(x.text)| && r[|r| - |Excerpt(x.text)|..] == Excerpt(x.text)
  {
    IntToString(x.score) + ", " + x.summary + ": " + Excerpt(x.text)
  }

  /** What is printed for one cluster. */
  datatype Section = Section(cluster: int, prompt: string, theme: string, lines: seq<string>)

  /** The rows of cluster `i`: `filter(pl.col("Cluster").eq(i))`. */
  function InCluster(rows: seq<Row>, i: int): (r: seq<Row>)
    ensures forall k :: 0 <= k < |r| ==> r[k].cluster == i && r[k] in rows
    ensures forall k :: 0 <= k < |rows| && rows[k].cluster == i ==> rows[k] in r
  {
    Filter(rows, (x: Row) => x.cluster == i)
  }

  /** The printed reviews of some sampled rows, in sample order. */
  function ReviewLines(sampled: seq<Row>): seq<string>
  {
    seq(|sampled|, j requires 0 <= j < |sampled| => ReviewLine(sampled[j]))
  }

  /** The section of cluster `i`, from the five `combined` texts sampled for
      the prompt and the five rows sampled for printing: the theme the chat
      model gives for the rewritten sampled texts, then one line per sampled
      row, in sample order, each ending with the row's cut review text. */
  function SectionOf(i: int, texts: seq<string>, sampled: seq<Row>, chat: string -> Option<string>): (r: Section)
    ensures r.cluster == i && r.prompt == ThemePrompt(Reviews(texts))
    ensures r.theme == Theme(chat(r.prompt))
    ensures |r.lines| == |sampled|
    ensures forall j :: 0 <= j < |sampled| ==>
              var e := Excerpt(sampled[j].text);
              |r.lines[j]| >= |e| && r.lines[j][|r.lines[j]| - |e|..] == e
  {
    var prompt := ThemePrompt(Reviews(texts));
    Section(i, prompt, Theme(chat(prompt)), ReviewLines(sampled))
  }

  /** Both samples of a cluster succeed or fail together: on fewer than five
      rows. */
  lemma SamplesAgree(members: seq<Row>, sampleTexts: seq<string> -> Option<seq<string>>,
                     sampleRows: seq<Row> -> Option<seq<Row>>)
    requires SamplesFive(sampleTexts) && SamplesFive(sampleRows)
    ensures sampleTexts(CombinedColumn(members)).None? <==> |members| < ReviewsPerCluster
    ensures sampleRows(members).None? <==> |members| < ReviewsPerCluster
    ensures sampleRows(members).Some? ==> |sampleRows(members).value| == ReviewsPerCluster
  {
  }

  /** The `combined` column of some rows. */
  function CombinedColumn(rows: seq<Row>): seq<string>
  {
    seq(|rows|, k requires 0 <= k < |rows| => rows[k].combined)
  }

  /** The printed lines of the sampled rows, in sample order. */
  method PrintReviews(sampled: seq<Row>) returns (lines: seq<string>)
    requires |sampled| == ReviewsPerCluster
    ensures lines == ReviewLines(sampled)
  {
    lines := [];
    for j := 0 to ReviewsPerCluster
      invariant |lines| == j
      invariant forall k :: 0 <= k < j ==> lines[k] == ReviewLine(sampled[k])
    {
      lines := lines + [ReviewLine(sampled[j])];
    }
  }

  /** What cluster `i` of `rows` prints, or `None` when its sampling throws. */
  function SectionFor(rows: seq<Row>, i: int, sampleTexts: seq<string> -> Option<seq<string>>,
                      sampleRows: seq<Row> -> Option<seq<Row>>, chat: string -> Option<string>): Option<Section>
  {
    var members := InCluster(rows, i);
    match (sampleTexts(CombinedColumn(members)), sampleRows(members))
    case (Some(texts), Some(sampled)) => Some(SectionOf(i, texts, sampled, chat))
    case _ => None
  }

  /** One pass of the cluster loop: the section of cluster `i`, or the throw
      of the sampling on a cluster with fewer than five rows. */
  method ReportCluster(i: int, rows: seq<Row>, sampleTexts: seq<string> -> Option<seq<string>>,
                       sampleRows: seq<Row> -> Option<seq<Row>>, chat: string -> Option<string>)
    returns (section: Option<Section>)
    requires SamplesFive(sampleTexts) && SamplesFive(sampleRows)
    ensures section.None? <==> |InCluster(rows, i)| < ReviewsPerCluster
    ensures section == SectionFor(rows, i, sampleTexts, sampleRows, chat)
  {
    var clusterData := InCluster(rows, i);
    var texts := sampleTexts(CombinedColumn(clusterData));
    SamplesAgree(clusterData, sampleTexts, sampleRows);
    if texts.None? {
      return None;
    }
    var prompt := ThemePrompt(Reviews(texts.value));
    var theme := Theme(chat(prompt));
    var sampled := sampleRows(clusterData);
    var lines := PrintReviews(sampled.value);
    section := Some(Section(i, prompt, theme, lines));
  }

  /** The sections of clusters `0` to `n - 1`, in order. */
  ghost predicate ReportedUpTo(rows: seq<Row>, sections: seq<Section>, sampleTexts: seq<string> -> Option<seq<string>>,
                               sampleRows: seq<Row> -> Option<seq<Row>>, chat: string -> Option<string>)
  {
    forall k :: 0 <= k < |sections| ==> SectionFor(rows, k, sampleTexts, sampleRows, chat) == Some(sections[k])
  }

  /** Appending the next cluster's section keeps the sections in cluster
      order. */
  lemma ReportedAppend(rows: seq<Row>, sections: seq<Section>, section: Section,
                       sampleTexts: seq<string> -> Option<seq<string>>,
                       sampleRows: seq<Row> -> Option<seq<Row>>, chat: string -> Option<string>)
    requires ReportedUpTo(rows, sections, sampleTexts, sampleRows, chat)
    requires SectionFor(rows, |sections|, sampleTexts, sampleRows, chat) == Some(section)
    ensures ReportedUpTo(rows, sections + [section], sampleTexts, sampleRows, chat)
  {
    var longer := sections + [section];
    forall k | 0 <= k < |longer|
      ensures SectionFor(rows, k, sampleTexts, sampleRows, chat) == Some(longer[k])
    {
      if k < |sections| {
        assert longer[k] == sections[k];
      }
    }
  }

  /** `kMeansClustering(openai)` after the user's answer: when the user asks
      for it, one section per cluster id 0, 1, 2, 3 in order, each built from
      five sampled texts and five sampled rows of that cluster; the loop
      stops at a cluster with fewer than five rows, since the sampling throws
      there, and only there. */
  method ClusterReport(generate: bool, rows: seq<Row>, sampleTexts: seq<string> -> Option<seq<string>>,
                       sampleRows: seq<Row> -> Option<seq<Row>>, chat: string -> Option<string>)
    returns (sections: seq<Section>, threw: bool)
    requires SamplesFive(sampleTexts) && SamplesFive(sampleRows)
    ensures !generate ==> sections == [] && !threw
    ensures |sections| <= ClusterCount
    ensures generate && !threw ==> |sections| == ClusterCount
    ensures threw ==> generate && |sections| < ClusterCount && |InCluster(rows, |sections|)| < ReviewsPerCluster
    ensures ReportedUpTo(rows, sections, sampleTexts, sampleRows, chat)
  {
    sections, threw := [], false;
    if !generate {
      return;
    }
    var i := 0;
    while i < ClusterCount
      invariant 0 <= i <= ClusterCount && |sections| == i
      invariant ReportedUpTo(rows, sections, sampleTexts, sampleRows, chat)
    {
      var section := ReportCluster(i, rows, sampleTexts, sampleRows, chat);
      if section.None? {
        threw := true;
        return;
      }
      ReportedAppend(rows, sections, section.value, sampleTexts, sampleRows, chat);
      sections := sections + [section.value];
      i := i + 1;
    }
  }
}

=== FILE: crawl.dfy ===
/** The crawl frontier of `crawl_action` (jennifer/actions/crawl.py): a deque
    used as a LIFO stack, a `seen` set, the `must_include` filter on links,
    and the file name each crawled page is written to.  Fetching a page and
    extracting its same-domain hyperlinks are parameters. */
module Crawl {
  import opened Wrappers
  import opened Text
  import opened Seqs

  /** `requests.get(url)` followed by `soup.get_text()`; `None` stands for a
      `requests.exceptions.ConnectionError`. */
  type Fetcher = string -> Option<string>

  /** `get_domain_hyperlinks(local_domain, url)`, in document order. */
  type LinkFinder = string -> seq<string>

  /** The file name of a crawled page:
      `url[8:].replace("/", "__").replace(":", "--")[:64]`, i.e. the URL
      without its first eight characters (`https://`), slashes and colons
      rewritten, cut to 64 characters.  It never holds a path separator or a
      colon and is at most 64 characters long. */
  function SanitizedName(url: string): (r: string)
    ensures |r| <= 64 && '/' !in r && ':' !in r
  {
    var slashes := ReplaceChar(Drop(url, 8), '/', "__");
    var colons := ReplaceChar(slashes, ':', "--");
    var r := Head(colons, 64);
    assert forall ch :: ch in r ==> ch in colons;
    r
  }

  /** A slash in the path becomes a double underscore. */
  lemma SlashName()
    ensures SanitizedName("https://a/b") == "a__b"
  {
    var u := "https://a/b";
    assert Drop(u, 8) == "a/b" by { assert u[8..] == "a/b"; }
    assert ReplaceChar("b", '/', "__") == "b" by { assert "b"[1..] == ""; }
    assert ReplaceChar("/b", '/', "__") == "__b" by { assert "/b"[1..] == "b"; }
    assert ReplaceChar("a/b", '/', "__") == "a__b" by { assert "a/b"[1..] == "/b"; }
    assert ReplaceChar("a__b", ':', "--") == "a__b";
    assert Head("a__b", 64) == "a__b";
  }

  /** A double underscore is kept as it is. */
  lemma UnderscoreName()
    ensures SanitizedName("https://a__b") == "a__b"
  {
    var v, w := "https://a__b", "a__b";
    assert Drop(v, 8) == w by { assert v[8..] == w; }
    assert '/' !in w && ':' !in w;
    assert ReplaceChar(w, '/', "__") == w && ReplaceChar(w, ':', "--") == w;
    assert Head(w, 64) == w;
  }

  /** Distinct URLs can share a file name, so the later page overwrites the
      earlier one: a slash and a double underscore are written the same way. */
  lemma SanitizedNameCollides()
    ensures "https://a/b" != "https://a__b"
    ensures SanitizedName("https://a/b") == SanitizedName("https://a__b") == "a__b"
  {
    SlashName();
    UnderscoreName();
    assert |"https://a/b"| != |"https://a__b"|;
  }

  /** The `must_include` test of a link: an empty filter admits everything,
      otherwise the filter must be a substring of the link. */
  predicate Admits(mustInclude: string, link: string)
  {
    mustInclude == "" || Contains(link, mustInclude)
  }

  /** The elements of a sequence. */
  function Elems(s: seq<string>): set<string>
  {
    set x | x in s
  }

  /** No element occurs twice. */
  predicate Distinct(s: seq<string>)
  {
    forall i, j :: 0 <= i < j < |s| ==> s[i] != s[j]
  }

  /** The inner `for link in ...` loop over the first `|links|` links of a
      page: the links it appends to the queue, and `seen` afterwards.  A link
      is appended when it is unseen (including links appended earlier in the
      same loop) and admitted by the filter. */
  function Expand(links: seq<string>, seen: set<string>, mustInclude: string): (r: (seq<string>, set<string>))
    ensures r.1 == seen + Elems(r.0)
    ensures Distinct(r.0)
    ensures forall k :: 0 <= k < |r.0| ==> r.0[k] !in seen && r.0[k] in links && Admits(mustInclude, r.0[k])
    ensures forall k :: 0 <= k < |links| && Admits(mustInclude, links[k]) ==> links[k] in r.1
  {
    if links == [] then ([], seen)
    else
      var n := |links| - 1;
      var (appended, seen') := Expand(links[..n], seen, mustInclude);
      assert forall k :: 0 <= k < n ==> links[..n][k] == links[k];
      if links[n] !in seen' && Admits(mustInclude, links[n]) then
        (appended + [links[n]], seen' + {links[n]})
      else
        (appended, seen')
  }

  /** The links of a page are considered in page order: expanding `a + b`
      appends the links `a` contributes, then those `b` contributes once the
      links of `a` are seen. */
  lemma {:induction false} ExpandAppend(a: seq<string>, b: seq<string>, seen: set<string>, mustInclude: string)
    ensures var (first, seenA) := Expand(a, seen, mustInclude);
            var (second, seenB) := Expand(b, seenA, mustInclude);
            Expand(a + b, seen, mustInclude) == (first + second, seenB)
  {
    if b == [] {
      assert a + b == a;
      var (first, seenA) := Expand(a, seen, mustInclude);
      assert Expand(b, seenA, mustInclude) == ([], seenA);
      assert first + [] == first;
    } else {
      var n := |b| - 1;
      var x := b[n];
      assert (a + b)[..|a + b| - 1] == a + b[..n];
      assert (a + b)[|a + b| - 1] == x;
      ExpandAppend(a, b[..n], seen, mustInclude);
      var (first, seenA) := Expand(a, seen, mustInclude);
      var (mid, seenM) := Expand(b[..n], seenA, mustInclude);
      assert Expand(a + b[..n], seen, mustInclude) == (first + mid, seenM);
      if x !in seenM && Admits(mustInclude, x) {
        assert Expand(b, seenA, mustInclude) == (mid + [x], seenM + {x});
        assert Expand(a + b, seen, mustInclude) == (first + mid + [x], seenM + {x});
        assert first + mid + [x] == first + (mid + [x]);
      } else {
        assert Expand(b, seenA, mustInclude) == (mid, seenM);
      }
    }
  }

  /** The state of the crawl loop: the deque, the `seen` set, and the URLs
      popped so far in the order they were popped. */
  datatype Frontier = Frontier(queue: seq<string>, seen: set<string>, visited: seq<string>)

  /** One iteration of `while queue`: pop the most recently appended URL; if
      fetching it raised a ConnectionError, skip the link expansion, otherwise
      append its admitted unseen links. */
  function Step(st: Frontier, fetch: Fetcher, links: LinkFinder, mustInclude: string): Frontier
    requires st.queue != []
  {
    var n := |st.queue| - 1;
    var url := st.queue[n];
    if fetch(url).None? then Frontier(st.queue[..n], st.seen, st.visited + [url])
    else
      var (appended, seen') := Expand(links(url), st.seen, mustInclude);
      Frontier(st.queue[..n] + appended, seen', st.visited + [url])
  }

  /** Depth first: after a page appended links, the next URL popped is the
      last of them, not anything queued before. */
  lemma StepIsLifo(st: Frontier, fetch: Fetcher, links: LinkFinder, mustInclude: string)
    requires st.queue != []
    ensures var url := st.queue[|st.queue| - 1];
            var appended := Expand(links(url), st.seen, mustInclude).0;
            var st' := Step(st, fetch, links, mustInclude);
            st'.visited == st.visited + [url] &&
            (fetch(url).Some? && appended != [] ==> st'.queue[|st'.queue| - 1] == appended[|appended| - 1])
  {
  }

  /** The file written for a popped URL: it is opened before the request, so
      a ConnectionError leaves it empty. */
  function PageFile(fetch: Fetcher, url: string): (string, string)
  {
    (SanitizedName(url) + ".txt", match fetch(url) case Some(text) => text case None => "")
  }

  /** `files` holds the file written for each visited URL, in visiting order. */
  ghost predicate FilesOf(files: seq<(string, string)>, visited: seq<string>, fetch: Fetcher)
  {
    |files| == |visited| && forall k :: 0 <= k < |visited| ==> files[k] == PageFile(fetch, visited[k])
  }

  /** Visiting one more URL writes one more file. */
  lemma FilesOfSnoc(files: seq<(string, string)>, visited: seq<string>, fetch: Fetcher, url: string)
    requires FilesOf(files, visited, fetch)
    ensures FilesOf(files + [PageFile(fetch, url)], visited + [url], fetch)
  {
  }

  /** How `crawl_action` ends. */
  datatype CrawlOutcome =
    | AlreadyCrawled
    | Crawled(cleared: bool, visited: seq<string>, files: seq<(string, string)>)

  /** Every link found on a URL of `universe` that `must_include` admits is
      in `universe`: links the filter rejects are never queued, so they may
      lead anywhere. */
  ghost predicate Closed(universe: set<string>, links: LinkFinder, mustInclude: string)
  {
    forall u, l :: u in universe && l in links(u) && Admits(mustInclude, l) ==> l in universe
  }

  /** `seen` is exactly the URLs popped or queued, all inside `universe`. */
  ghost predicate SeenIsQueuedOrVisited(st: Frontier, universe: set<string>)
  {
    st.seen <= universe && st.seen == Elems(st.visited) + Elems(st.queue)
  }

  /** No URL is queued twice or popped twice, nor both queued and popped. */
  predicate NoRepeats(st: Frontier)
  {
    Distinct(st.visited) && Distinct(st.queue) && Elems(st.visited) !! Elems(st.queue)
  }

  /** The start URL is popped first and never queued again; every other URL
      passed the `must_include` filter. */
  predicate StartsAt(st: Frontier, url: string, mustInclude: string)
  {
    && (st.visited == [] ==> st.queue == [url])
    && (st.visited != [] ==> st.visited[0] == url && url !in st.queue)
    && (forall k :: 0 < k < |st.visited| ==> Admits(mustInclude, st.visited[k]))
    && (forall k :: 0 <= k < |st.queue| ==> st.queue[k] == url || Admits(mustInclude, st.queue[k]))
  }

  /** Every admitted link on a page fetched so far has been seen. */
  ghost predicate LinksSeen(st: Frontier, fetch: Fetcher, links: LinkFinder, mustInclude: string)
  {
    forall k, l :: (0 <= k < |st.visited| && fetch(st.visited[k]).Some? && l in links(st.visited[k])
      && Admits(mustInclude, l)) ==> l in st.seen
  }

  /** What the crawl loop keeps true of its state, starting from `url`. */
  ghost predicate Invariant(st: Frontier, url: string, fetch: Fetcher, links: LinkFinder,
                            mustInclude: string, universe: set<string>)
  {
    SeenIsQueuedOrVisited(st, universe) && NoRepeats(st) && StartsAt(st, url, mustInclude)
    && LinksSeen(st, fetch, links, mustInclude)
  }

  lemma StepKeepsSeen(st: Frontier, fetch: Fetcher, links: LinkFinder, mustInclude: string, universe: set<string>)
    requires st.queue != [] && Closed(universe, links, mustInclude)
    requires SeenIsQueuedOrVisited(st, universe) && NoRepeats(st)
    ensures var st' := Step(st, fetch, links, mustInclude);
            && SeenIsQueuedOrVisited(st', universe)
            && st.seen <= st'.seen
            && ((universe - st'.seen) < (universe - st.seen)
                || (st'.seen == st.seen && |st'.queue| < |st.queue|))
  {
    var n := |st.queue| - 1;
    var current := st.queue[n];
    var queue := st.queue[..n];
    var visited := st.visited + [current];
    assert Elems(visited) == Elems(st.visited) + {current};
    assert Elems(st.queue) == Elems(queue) + {current} by {
      assert st.queue == queue + [current];
    }
    assert current in universe;
    if fetch(current).Some? {
      var (appended, seen') := Expand(links(current), st.seen, mustInclude);
      assert Elems(queue + appended) == Elems(queue) + Elems(appended);
      assert Elems(appended) <= universe;
      if appended != [] {
        assert appended[0] in (universe - st.seen) && appended[0] !in (universe - seen');
      }
    }
  }

  lemma StepKeepsNoRepeats(st: Frontier, fetch: Fetcher, links: LinkFinder, mustInclude: string, universe: set<string>)
    requires st.queue != []
    requires SeenIsQueuedOrVisited(st, universe) && NoRepeats(st)
    ensures NoRepeats(Step(st, fetch, links, mustInclude))
  {
    var n := |st.queue| - 1;
    var current := st.queue[n];
    var queue := st.queue[..n];
    assert st.queue == queue + [current];
    ElemsConcat(queue, [current]);
    assert Elems([current]) == {current};
    assert Distinct(queue) && current !in queue;
    assert current !in Elems(st.visited);
    DistinctSnoc(st.visited, current);
    ElemsConcat(st.visited, [current]);
    var visited := st.visited + [current];
    assert Elems(visited) !! Elems(queue);
    if fetch(current).Some? {
      var appended := Expand(links(current), st.seen, mustInclude).0;
      assert Elems(appended) !! st.seen;
      DistinctConcat(queue, appended);
      ElemsConcat(queue, appended);
    }
  }

  /** The elements of a concatenation. */
  lemma ElemsConcat(a: seq<string>, b: seq<string>)
    ensures Elems(a + b) == Elems(a) + Elems(b)
  {
  }

  /** Appending a new element keeps a sequence free of repeats. */
  lemma DistinctSnoc(s: seq<string>, x: string)
    requires Distinct(s) && x !in s
    ensures Distinct(s + [x])
  {
    var r := s + [x];
    forall i, j | 0 <= i < j < |r|
      ensures r[i] != r[j]
    {
      assert r[i] == s[i];
    }
  }

  /** Two sequences free of repeats and with no common element concatenate
      to one free of repeats. */
  lemma DistinctConcat(a: seq<string>, b: seq<string>)
    requires Distinct(a) && Distinct(b) && Elems(a) !! Elems(b)
    ensures Distinct(a + b)
  {
    var r := a + b;
    forall i, j | 0 <= i < j < |r|
      ensures r[i] != r[j]
    {
      if j < |a| {
        assert r[i] == a[i] && r[j] == a[j];
      } else if i < |a| {
        assert r[i] == a[i] && r[j] == b[j - |a|];
        assert a[i] in Elems(a) && b[j - |a|] in Elems(b);
      } else {
        assert r[i] == b[i - |a|] && r[j] == b[j - |a|];
      }
    }
  }

  lemma StepKeepsStart(st: Frontier, url: string, fetch: Fetcher, links: LinkFinder, mustInclude: string, universe: set<string>)
    requires st.queue != []
    requires SeenIsQueuedOrVisited(st, universe) && NoRepeats(st) && StartsAt(st, url, mustInclude)
    ensures StartsAt(Step(st, fetch, links, mustInclude), url, mustInclude)
  {
    var n := |st.queue| - 1;
    var current := st.queue[n];
    if fetch(current).Some? {
      var appended := Expand(links(current), st.seen, mustInclude).0;
      var queue' := st.queue[..n] + appended;
      assert url in st.seen;
      forall k | 0 <= k < |queue'|
        ensures queue'[k] == url || Admits(mustInclude, queue'[k])
      {
        if k >= n {
          assert queue'[k] == appended[k - n];
        }
      }
      assert url !in appended;
    }
  }

  lemma StepKeepsLinksSeen(st: Frontier, fetch: Fetcher, links: LinkFinder, mustInclude: string)
    requires st.queue != []
    requires LinksSeen(st, fetch, links, mustInclude)
    ensures LinksSeen(Step(st, fetch, links, mustInclude), fetch, links, mustInclude)
  {
    var n := |st.queue| - 1;
    var current := st.queue[n];
    var st' := Step(st, fetch, links, mustInclude);
    forall k, l | 0 <= k < |st'.visited| && fetch(st'.visited[k]).Some? && l in links(st'.visited[k])
      && Admits(mustInclude, l)
      ensures l in st'.seen
    {
      if k < |st.visited| {
        assert st'.visited[k] == st.visited[k];
      } else {
        var found := links(current);
        var i :| 0 <= i < |found| && found[i] == l;
      }
    }
  }

  /** A step keeps the invariant, and either marks new URLs seen or shrinks
      the queue, so the loop ends when `universe` is finite. */
  lemma StepKeepsInvariant(st: Frontier, url: string, fetch: Fetcher, links: LinkFinder,
                           mustInclude: string, universe: set<string>)
    requires st.queue != [] && Closed(universe, links, mustInclude)
    requires Invariant(st, url, fetch, links, mustInclude, universe)
    ensures var st' := Step(st, fetch, links, mustInclude);
            && Invariant(st', url, fetch, links, mustInclude, universe)
            && ((universe - st'.seen) < (universe - st.seen)
                || (st'.seen == st.seen && |st'.queue| < |st.queue|))
  {
    StepKeepsSeen(st, fetch, links, mustInclude, universe);
    StepKeepsNoRepeats(st, fetch, links, mustInclude, universe);
    StepKeepsStart(st, url, fetch, links, mustInclude, universe);
    StepKeepsLinksSeen(st, fetch, links, mustInclude);
  }

  /** When the queue is empty, every admitted link on every fetched page has
      itself been popped: the crawl is closed under following links. */
  lemma EmptyQueueIsClosed(st: Frontier, url: string, fetch: Fetcher, links: LinkFinder,
                           mustInclude: string, universe: set<string>)
    requires st.queue == [] && Invariant(st, url, fetch, links, mustInclude, universe)
    ensures forall k, l :: (0 <= k < |st.visited| && fetch(st.visited[k]).Some? && l in links(st.visited[k])
              && Admits(mustInclude, l)) ==> l in st.visited
  {
    assert st.seen == Elems(st.visited);
  }

  /** The inner loop over the links of a fetched page: each unseen admitted
      link is appended to the queue and marked seen. */
  method QueueLinks(queue: seq<string>, seen: set<string>, found: seq<string>, mustInclude: string)
    returns (queue': seq<string>, seen': set<string>)
    ensures queue' == queue + Expand(found, seen, mustInclude).0
    ensures seen' == Expand(found, seen, mustInclude).1
  {
    queue', seen' := queue, seen;
    var j := 0;
    while j < |found|
      invariant 0 <= j <= |found|
      invariant queue' == queue + Expand(found[..j], seen, mustInclude).0
      invariant seen' == Expand(found[..j], seen, mustInclude).1
    {
      assert found[..j + 1][..j] == found[..j];
      var link := found[j];
      if link !in seen' && (mustInclude == "" || Contains(link, mustInclude)) {
        queue' := queue' + [link];
        seen' := seen' + {link};
      }
      j := j + 1;
    }
    assert found[..j] == found;
  }

  /** The URLs a crawl from `url` pops, in order: the start URL first, none
      twice, every other one admitted by the filter, and every admitted link
      on every fetched page among them. */
  ghost predicate CrawlOrder(visited: seq<string>, url: string, fetch: Fetcher, links: LinkFinder, mustInclude: string)
  {
    && visited != [] && visited[0] == url
    && Distinct(visited)
    && (forall k :: 0 < k < |visited| ==> Admits(mustInclude, visited[k]))
    && (forall k, l :: (0 <= k < |visited| && fetch(visited[k]).Some? && l in links(visited[k])
          && Admits(mustInclude, l)) ==> l in visited)
  }

  /** `states` is the run of the loop from the start state to a state with an
      empty queue. */
  ghost predicate IsRun(states: seq<Frontier>, url: string, fetch: Fetcher, links: LinkFinder, mustInclude: string)
  {
    && states != [] && states[0] == Frontier([url], {url}, [])
    && Steps(states, fetch, links, mustInclude)
    && states[|states| - 1].queue == []
  }

  /** Each state of `states` after the first is one step from the one before. */
  ghost predicate Steps(states: seq<Frontier>, fetch: Fetcher, links: LinkFinder, mustInclude: string)
  {
    forall k :: 0 <= k < |states| - 1 ==>
      states[k].queue != [] && states[k + 1] == Step(states[k], fetch, links, mustInclude)
  }

  /** Appending the step from the last state extends a run of steps. */
  lemma StepsExtend(states: seq<Frontier>, fetch: Fetcher, links: LinkFinder, mustInclude: string)
    requires states != [] && states[|states| - 1].queue != []
    requires Steps(states, fetch, links, mustInclude)
    ensures Steps(states + [Step(states[|states| - 1], fetch, links, mustInclude)], fetch, links, mustInclude)
  {
    var next := Step(states[|states| - 1], fetch, links, mustInclude);
    var states' := states + [next];
    forall k | 0 <= k < |states'| - 1
      ensures states'[k].queue != [] && states'[k + 1] == Step(states'[k], fetch, links, mustInclude)
    {
      assert states'[k] == states[k];
      if k < |states| - 1 {
        assert states'[k + 1] == states[k + 1];
      }
    }
  }

  /** A loop state with an empty queue has popped its URLs in crawl order. */
  lemma FinishedIsCrawlOrder(st: Frontier, url: string, fetch: Fetcher, links: LinkFinder,
                             mustInclude: string, universe: set<string>)
    requires st.queue == [] && Invariant(st, url, fetch, links, mustInclude, universe)
    ensures CrawlOrder(st.visited, url, fetch, links, mustInclude)
    ensures st.seen == Elems(st.visited)
  {
    EmptyQueueIsClosed(st, url, fetch, links, mustInclude, universe);
  }

  /** The `while queue` loop of `crawl_action` from the start URL, with the
      page file written for each popped URL. */
  method Crawl(url: string, mustInclude: string, fetch: Fetcher, links: LinkFinder, ghost universe: set<string>)
    returns (visited: seq<string>, files: seq<(string, string)>, ghost states: seq<Frontier>)
    requires url in universe && Closed(universe, links, mustInclude)
    ensures IsRun(states, url, fetch, links, mustInclude)
    ensures states[|states| - 1].visited == visited
    ensures Invariant(states[|states| - 1], url, fetch, links, mustInclude, universe)
    ensures |files| == |visited| && forall k :: 0 <= k < |visited| ==> files[k] == PageFile(fetch, visited[k])
  {
    var queue := [url];
    var seen := {url};
    visited := [];
    files := [];
    states := [Frontier(queue, seen, visited)];
    while queue != []
      invariant states != [] && states[0] == Frontier([url], {url}, [])
      invariant states[|states| - 1] == Frontier(queue, seen, visited)
      invariant Steps(states, fetch, links, mustInclude)
      invariant Invariant(Frontier(queue, seen, visited), url, fetch, links, mustInclude, universe)
      invariant FilesOf(files, visited, fetch)
      decreases universe - seen, |queue|
    {
      ghost var before := Frontier(queue, seen, visited);
      StepKeepsInvariant(before, url, fetch, links, mustInclude, universe);
      StepsExtend(states, fetch, links, mustInclude);
      var n := |queue| - 1;
      var current := queue[n];
      queue := queue[..n];
      ghost var n' := |visited|;
      visited := visited + [current];
      assert visited[..n'] == before.visited;
      var page := fetch(current);
      var text := match page case Some(t) => t case None => "";
      assert (SanitizedName(current) + ".txt", text) == PageFile(fetch, current);
      FilesOfSnoc(files, visited[..n'], fetch, current);
      files := files + [(SanitizedName(current) + ".txt", text)];
      if page.Some? {
        queue, seen := QueueLinks(queue, seen, links(current), mustInclude);
      }
      ghost var after := Frontier(queue, seen, visited);
      assert after == Step(before, fetch, links, mustInclude);
      states := states + [after];
      assert states[|states| - 1] == after;
    }
  }

  /** `crawl_action(url, rebuild, must_include)`; `dirExists` says whether the
      output directory of the domain exists, in which case it is left alone
      unless `rebuild` asks for it to be removed.  The URLs reachable from
      `url` lie in the finite set `universe`: otherwise the loop does not end. */
  method CrawlAction(url: string, rebuild: bool, mustInclude: string, dirExists: bool,
                     fetch: Fetcher, links: LinkFinder, ghost universe: set<string>)
    returns (outcome: CrawlOutcome, ghost states: seq<Frontier>)
    requires url in universe && Closed(universe, links, mustInclude)
    ensures outcome == AlreadyCrawled <==> dirExists && !rebuild
    ensures outcome.Crawled? ==>
              && outcome.cleared == dirExists
              && CrawlOrder(outcome.visited, url, fetch, links, mustInclude)
              && |outcome.files| == |outcome.visited|
              && (forall k :: 0 <= k < |outcome.visited| ==> outcome.files[k] == PageFile(fetch, outcome.visited[k]))
              && IsRun(states, url, fetch, links, mustInclude)
              && states[|states| - 1] == Frontier([], Elems(outcome.visited), outcome.visited)
  {
    states := [];
    if dirExists && !rebuild {
      return AlreadyCrawled, states;
    }
    var visited, files;
    visited, files, states := Crawl(url, mustInclude, fetch, links, universe);
    FinishedIsCrawlOrder(states[|states| - 1], url, fetch, links, mustInclude, universe);
    outcome := Crawled(dirExists, visited, files);
  }
}

=== FILE: crawler.dfy ===
/** The crawler action of the Deno command line: the profile page's links
    that point into the profile and carry `source`, without duplicates, then
    one crawled post per link, written as CSV under the chosen name.  The
    HTML crawler is a pair of functions: `links` gives the `href` attribute
    of every anchor of a page (`None` where an anchor has none), `page` gives
    the `h1` text and the post paragraphs' text of a page.  The user's
    answers are parameters. */
module Crawler {
  import opened Wrappers
  import opened Text

  // ---------------------------------------------------------------------
  // removeDuplicates

  /** No element occurs twice. */
  predicate Distinct<T(==)>(s: seq<T>)
  {
    forall i, j :: 0 <= i < j < |s| ==> s[i] != s[j]
  }

  /** The index of the first occurrence of `x` in `s`. */
  function First<T(==)>(s: seq<T>, x: T): (r: nat)
    requires x in s
    ensures r < |s| && s[r] == x && x !in s[..r]
  {
    if s[0] == x then 0
    else
      assert s == [s[0]] + s[1..];
      var k := First(s[1..], x);
      assert s[..k + 1] == [s[0]] + s[1..][..k];
      k + 1
  }

  /** Appending to a sequence moves no first occurrence. */
  lemma {:induction false} FirstAppend<T>(s: seq<T>, y: T, x: T)
    requires x in s
    ensures First(s + [y], x) == First(s, x)
  {
    if s[0] != x {
      assert (s + [y])[1..] == s[1..] + [y];
      FirstAppend(s[1..], y, x);
    }
  }

  /** `[...new Set(input)]`: the elements of `input` in the order of their
      first occurrence, each once. */
  function RemoveDuplicates<T(==)>(input: seq<T>): (r: seq<T>)
    ensures Distinct(r)
    ensures forall i :: 0 <= i < |r| ==> r[i] in input
    ensures forall i :: 0 <= i < |input| ==> input[i] in r
    ensures |r| <= |input|
  {
    if input == [] then []
    else
      var init, last := input[..|input| - 1], input[|input| - 1];
      assert input == init + [last];
      var r := RemoveDuplicates(init);
      if last in r then r else r + [last]
  }

  /** The output follows the order of first occurrence in the input. */
  lemma {:induction false} RemoveDuplicatesInFirstOrder<T>(input: seq<T>)
    ensures forall i, j :: 0 <= i < j < |RemoveDuplicates(input)| ==>
              First(input, RemoveDuplicates(input)[i]) < First(input, RemoveDuplicates(input)[j])
  {
    if input != [] {
      var init, last := input[..|input| - 1], input[|input| - 1];
      assert input == init + [last];
      var r := RemoveDuplicates(init);
      RemoveDuplicatesInFirstOrder(init);
      forall x | x in init
        ensures First(input, x) == First(init, x) < |init|
      {
        FirstAppend(init, last, x);
      }
      if last !in r {
        assert last !in init;
        assert First(input, last) == |init|;
      }
    }
  }

  /** A sequence without duplicates comes back unchanged. */
  lemma {:induction false} RemoveDuplicatesOfDistinct<T>(s: seq<T>)
    requires Distinct(s)
    ensures RemoveDuplicates(s) == s
  {
    if s != [] {
      var init, last := s[..|s| - 1], s[|s| - 1];
      assert Distinct(init);
      RemoveDuplicatesOfDistinct(init);
      assert last !in init;
    }
  }

  /** Removing duplicates twice is removing them once. */
  lemma RemoveDuplicatesIdempotent<T>(s: seq<T>)
    ensures RemoveDuplicates(RemoveDuplicates(s)) == RemoveDuplicates(s)
  {
    RemoveDuplicatesOfDistinct(RemoveDuplicates(s));
  }

  /** A repeated link keeps the place of its first occurrence. */
  lemma RemoveDuplicatesExample()
    ensures RemoveDuplicates(["b", "a", "b", "c", "a"]) == ["b", "a", "c"]
  {
    assert ["b", "a"][..1] == ["b"];
    assert RemoveDuplicates(["b", "a"]) == ["b", "a"];
    assert ["b", "a", "b"][..2] == ["b", "a"];
    assert RemoveDuplicates(["b", "a", "b"]) == ["b", "a"];
    assert ["b", "a", "b", "c"][..3] == ["b", "a", "b"];
    assert RemoveDuplicates(["b", "a", "b", "c"]) == ["b", "a", "c"];
    assert ["b", "a", "b", "c", "a"][..4] == ["b", "a", "b", "c"];
  }

  // ---------------------------------------------------------------------
  // crawlProfile

  /** The filter of `crawlProfile`: the link contains the profile URL and
      `source`. */
  predicate KeepLink(href: string, url: string)
  {
    Contains(href, url) && Contains(href, "source")
  }

  /** `filter(Boolean)` also drops empty strings, but a kept link is never
      empty: it contains `source`. */
  lemma KeptLinkNonEmpty(href: string, url: string)
    requires KeepLink(href, url)
    ensures href != ""
  {
    ContainsIff(href, "source");
  }

  /** The map and `filter(Boolean)` over the anchors' `href`s: the first
      anchor without one throws (`href.includes` on `undefined`); otherwise
      the kept links in anchor order. */
  function KeptLinks(hrefs: seq<Option<string>>, url: string): (r: Result<seq<string>>)
    ensures r.Failure? <==> exists k :: 0 <= k < |hrefs| && hrefs[k].None?
    ensures r.Success? ==>
              && (forall k :: 0 <= k < |r.value| ==> KeepLink(r.value[k], url) && Some(r.value[k]) in hrefs)
              && (forall k :: 0 <= k < |hrefs| && KeepLink(hrefs[k].value, url) ==> hrefs[k].value in r.value)
  {
    if hrefs == [] then Success([])
    else
      var init, last := hrefs[..|hrefs| - 1], hrefs[|hrefs| - 1];
      assert hrefs == init + [last];
      match KeptLinks(init, url)
      case Failure(e) => Failure(e)
      case Success(kept) =>
        match last
        case None => Failure("Cannot read properties of undefined (reading 'includes')")
        case Some(href) =>
          var keep := KeepLink(href, url) && href != "";
          if keep then Success(kept + [href]) else Success(kept)
  }

  /** `crawlProfile(url)`: the kept links of the profile page, each once, in
      the order of their first anchor. */
  function CrawlProfile(url: string, links: string -> seq<Option<string>>): (r: Result<seq<string>>)
    ensures r.Failure? <==> exists k :: 0 <= k < |links(url)| && links(url)[k].None?
    ensures r.Success? ==>
              && Distinct(r.value)
              && forall href :: href in r.value <==> Some(href) in links(url) && KeepLink(href, url)
  {
    match KeptLinks(links(url), url)
    case Failure(e) => Failure(e)
    case Success(kept) =>
      forall href | Some(href) in links(url) && KeepLink(href, url)
        ensures href in kept
      {
        var k :| 0 <= k < |links(url)| && links(url)[k] == Some(href);
      }
      Success(RemoveDuplicates(kept))
  }

  // ---------------------------------------------------------------------
  // crawlPost and crawlerAction

  /** What `crawlPost` resolves to: `{}` or the page's URL, title and text. */
  datatype CrawledPost = NoPost | Post(url: string, title: string, text: string)

  /** `crawlPost(url)`: a missing or empty URL gives `{}` without a request;
      any other URL is requested and gives its title and text. */
  function CrawlPost(url: Option<string>, page: string -> (string, string)): (r: CrawledPost)
    ensures r.NoPost? <==> url.None? || url.value == ""
    ensures r.Post? ==> r.url == url.value && (r.title, r.text) == page(url.value)
  {
    match url
    case None => NoPost
    case Some(u) => if u == "" then NoPost else Post(u, page(u).0, page(u).1)
  }

  /** How the crawler action ends. */
  datatype CrawlerOutcome =
    | Cancelled                       // empty profile: nothing is requested
    | ProfileFailed(error: string)    // `crawlProfile` threw
    | Discarded(posts: seq<CrawledPost>)  // empty output name: nothing is written
    | Written(fileName: string, posts: seq<CrawledPost>)

  /** `crawlerAction({ verbose })`.  `profile` and `outputName` are the
      user's answers; the file is written under the output directory as the
      output name followed by `.csv`. */
  function CrawlerAction(profile: string, outputName: string, links: string -> seq<Option<string>>,
                         page: string -> (string, string)): (r: CrawlerOutcome)
    ensures r.Cancelled? <==> profile == ""
    ensures r.ProfileFailed? <==> profile != "" && CrawlProfile(profile, links).Failure?
    ensures r.Discarded? <==> profile != "" && CrawlProfile(profile, links).Success? && outputName == ""
    ensures r.Written? ==> r.fileName == outputName + ".csv"
    ensures r.Discarded? || r.Written? ==>
              var found := CrawlProfile(profile, links).value;
              && |r.posts| == |found|
              && forall i :: 0 <= i < |found| ==>
                   r.posts[i] == Post(found[i], page(found[i]).0, page(found[i]).1)
  {
    if profile == "" then Cancelled
    else
      match CrawlProfile(profile, links)
      case Failure(e) => ProfileFailed(e)
      case Success(found) =>
        var posts := seq(|found|, i requires 0 <= i < |found| => CrawlPost(Some(found[i]), page));
        assert forall i :: 0 <= i < |found| ==> KeepLink(found[i], profile);
        forall i | 0 <= i < |found|
          ensures found[i] != ""
        {
          KeptLinkNonEmpty(found[i], profile);
        }
        if outputName == "" then Discarded(posts) else Written(outputName + ".csv", posts)
  }
}

=== FILE: dataset.dfy ===
/** The dataset preparation pipelines that feed the embedding step:
    `loadAndInspectDataset` for the fine-food reviews (select, dropNulls,
    combine, sort by time, keep the latest 2000, count tokens, keep rows
    within the token budget, keep the last 1000) and its variant for crawled
    blog posts (no time sort, no first cut).  The CSV reader, the column
    projection and the tokenizer are not modelled: rows arrive already
    projected onto the selected columns, with `None` for a null cell, and the
    tokenizer is a function `count` from text to token count. */
module Dataset {
  import opened Wrappers
  import opened Text
  import opened Seqs

  /** `top_n`: the number of rows kept in the end. */
  const TopN: nat := 1000
  /** `max_tokens`: the largest token count kept (inclusive). */
  const MaxTokens: nat := 8000

  /** `"Title: {}; Content: {}"` applied to the stripped title and body. */
  function Combine(title: string, body: string): string
  {
    "Title: " + Strip(title) + "; Content: " + Strip(body)
  }

  /** A row within the token budget. */
  predicate WithinBudget(nTokens: nat)
  {
    nTokens <= MaxTokens
  }

  // ---------------------------------------------------------------------
  // Fine-food reviews

  /** A row after `select("Time", "ProductId", "UserId", "Score", "Summary",
      "Text")`; `None` is a null cell. */
  datatype RawReview = RawReview(
    time: Option<int>, productId: Option<string>, userId: Option<string>,
    score: Option<int>, summary: Option<string>, text: Option<string>)

  /** A row after `dropNulls` and the `combined` column. */
  datatype Review = Review(
    time: int, productId: string, userId: string, score: int,
    summary: string, text: string, combined: string)

  /** A row of the result: `Time` dropped, `n_tokens` added. */
  datatype PreparedReview = PreparedReview(
    productId: string, userId: string, score: int,
    summary: string, text: string, combined: string, nTokens: nat)

  /** No cell of the row is null. */
  predicate Complete(x: RawReview)
  {
    x.time.Some? && x.productId.Some? && x.userId.Some? && x.score.Some?
    && x.summary.Some? && x.text.Some?
  }

  /** The row of a complete raw row, with its `combined` column. */
  function Combined(x: RawReview): Review
    requires Complete(x)
  {
    Review(x.time.value, x.productId.value, x.userId.value, x.score.value,
           x.summary.value, x.text.value, Combine(x.summary.value, x.text.value))
  }

  /** `dropNulls` followed by `withColumn(combined)`: one row per complete
      row, each with its `combined` column built by the template. */
  function Clean(rows: seq<RawReview>): (r: seq<Review>)
    ensures forall i :: 0 <= i < |r| ==> r[i].combined == Combine(r[i].summary, r[i].text)
  {
    if rows == [] then []
    else
      var init, last := rows[..|rows| - 1], rows[|rows| - 1];
      assert rows == init + [last];
      Clean(init) + if Complete(last) then [Combined(last)] else []
  }

  /** One cleaned row per complete row. */
  lemma {:induction false} CleanLength(rows: seq<RawReview>)
    ensures |Clean(rows)| == |Filter(rows, Complete)|
  {
    if rows != [] {
      var init, last := rows[..|rows| - 1], rows[|rows| - 1];
      CleanLength(init);
    }
  }

  /** Every complete row reaches the cleaned frame. */
  lemma {:induction false} CleanKeepsComplete(rows: seq<RawReview>, x: RawReview)
    requires x in rows && Complete(x)
    ensures Combined(x) in Clean(rows)
  {
    var init, last := rows[..|rows| - 1], rows[|rows| - 1];
    assert rows == init + [last];
    if x != last {
      CleanKeepsComplete(init, x);
    }
  }

  /** Every cleaned row comes from a complete row. */
  lemma {:induction false} CleanFrom(rows: seq<RawReview>, y: Review)
    requires y in Clean(rows)
    ensures exists i :: 0 <= i < |rows| && Complete(rows[i]) && Combined(rows[i]) == y
  {
    var n := |rows| - 1;
    var init := rows[..n];
    if y in Clean(init) {
      CleanFrom(init, y);
      var i :| 0 <= i < |init| && Complete(init[i]) && Combined(init[i]) == y;
      assert rows[i] == init[i];
    } else {
      assert Complete(rows[n]) && Combined(rows[n]) == y;
    }
  }

  /** Rows ordered by ascending `Time`, as `sort("Time")` orders them. */
  predicate ByTime(x: Review, y: Review)
  {
    x.time <= y.time
  }

  /** `sort("Time").tail(top_n * 2)`: the cut to the most recent reviews. */
  function Recent(rows: seq<RawReview>, sort: seq<Review> -> seq<Review>): (r: seq<Review>)
    ensures |r| <= 2 * TopN
  {
    Tail(sort(Clean(rows)), 2 * TopN)
  }

  /** `drop("Time")` and the `n_tokens` column of one row. */
  function Counted(x: Review, count: string -> nat): (r: PreparedReview)
    ensures r.nTokens == count(r.combined)
  {
    PreparedReview(x.productId, x.userId, x.score, x.summary, x.text, x.combined, count(x.combined))
  }

  /** `n_tokens` of every row of a frame. */
  function CountAll(rows: seq<Review>, count: string -> nat): seq<PreparedReview>
  {
    seq(|rows|, i requires 0 <= i < |rows| => Counted(rows[i], count))
  }

  predicate ReviewWithinBudget(x: PreparedReview)
  {
    WithinBudget(x.nTokens)
  }

  /** Every row of the recent cut is a cleaned row, so its `combined`
      column follows the template. */
  lemma RecentAreClean(rows: seq<RawReview>, sort: seq<Review> -> seq<Review>)
    requires Sorts(sort, ByTime)
    ensures forall x :: x in Recent(rows, sort) ==> x in Clean(rows) && x.combined == Combine(x.summary, x.text)
  {
    forall x | x in Recent(rows, sort)
      ensures x in Clean(rows)
    {
      assert x in multiset(sort(Clean(rows)));
    }
  }

  /** Every row is within the token budget, counts the tokens of its own
      `combined` text, which follows the template, and is one of `source`
      with `Time` dropped and `n_tokens` added. */
  ghost predicate PreparedFrom(r: seq<PreparedReview>, source: seq<Review>, count: string -> nat)
  {
    forall i :: 0 <= i < |r| ==>
      && r[i].nTokens <= MaxTokens
      && r[i].nTokens == count(r[i].combined)
      && r[i].combined == Combine(r[i].summary, r[i].text)
      && exists x :: x in source && Counted(x, count) == r[i]
  }

  /** A row that passes the budget filter is a prepared row of the recent
      cut. */
  lemma FinalRow(rows: seq<RawReview>, sort: seq<Review> -> seq<Review>, count: string -> nat, y: PreparedReview)
    requires Sorts(sort, ByTime)
    requires y in Filter(CountAll(Recent(rows, sort), count), ReviewWithinBudget)
    ensures y.nTokens <= MaxTokens && y.nTokens == count(y.combined)
    ensures y.combined == Combine(y.summary, y.text)
    ensures exists x :: x in Recent(rows, sort) && Counted(x, count) == y
  {
    var recent := Recent(rows, sort);
    var counted := CountAll(recent, count);
    var i :| 0 <= i < |counted| && counted[i] == y;
    RecentAreClean(rows, sort);
    assert recent[i] in recent && Counted(recent[i], count) == y;
  }

  /** The rows that pass the budget filter and the final tail are prepared
      from the recent cut. */
  lemma FinalRows(rows: seq<RawReview>, sort: seq<Review> -> seq<Review>, count: string -> nat)
    requires Sorts(sort, ByTime)
    ensures PreparedFrom(Tail(Filter(CountAll(Recent(rows, sort), count), ReviewWithinBudget), TopN),
                         Recent(rows, sort), count)
  {
    var f := Filter(CountAll(Recent(rows, sort), count), ReviewWithinBudget);
    var r := Tail(f, TopN);
    forall k | 0 <= k < |r|
      ensures r[k].nTokens <= MaxTokens && r[k].nTokens == count(r[k].combined)
      ensures r[k].combined == Combine(r[k].summary, r[k].text)
      ensures exists x :: x in Recent(rows, sort) && Counted(x, count) == r[k]
    {
      assert r[k] == f[|f| - |r| + k];
      FinalRow(rows, sort, count, r[k]);
    }
  }

  /** Only the 2000 latest complete reviews reach the token count: every
      complete review cut away is no later than any that is kept. */
  lemma RecentAreLatest(rows: seq<RawReview>, sort: seq<Review> -> seq<Review>)
    requires Sorts(sort, ByTime)
    ensures forall y, x :: y in multiset(Clean(rows)) - multiset(Recent(rows, sort)) && x in Recent(rows, sort)
              ==> y.time <= x.time
  {
    TailKeepsLast(Clean(rows), sort(Clean(rows)), ByTime, 2 * TopN);
  }

  /** The reviews whose `combined` text is within the token budget. */
  function Fits(count: string -> nat): Review -> bool
  {
    (x: Review) => WithinBudget(count(x.combined))
  }

  /** Counting the tokens of a concatenation counts each part. */
  lemma CountAllAppend(a: seq<Review>, b: seq<Review>, count: string -> nat)
    ensures CountAll(a + b, count) == CountAll(a, count) + CountAll(b, count)
  {
  }

  /** Counting tokens commutes with the final cut. */
  lemma CountAllTail(rows: seq<Review>, count: string -> nat, n: nat)
    ensures CountAll(Tail(rows, n), count) == Tail(CountAll(rows, count), n)
  {
    var t := Tail(rows, n);
    var all := CountAll(rows, count);
    var d := |rows| - |t|;
    var lhs, rhs := CountAll(t, count), Tail(all, n);
    assert |lhs| == |rhs|;
    forall i | 0 <= i < |lhs|
      ensures lhs[i] == rhs[i]
    {
      assert t[i] == rows[d + i];
      assert rhs[i] == all[d + i];
    }
  }

  /** Counting tokens commutes with the budget filter. */
  lemma {:induction false} CountAllFilter(rows: seq<Review>, count: string -> nat)
    ensures CountAll(Filter(rows, Fits(count)), count) == Filter(CountAll(rows, count), ReviewWithinBudget)
  {
    if rows != [] {
      var n := |rows| - 1;
      var init, last := rows[..n], rows[n];
      CountAllFilter(init, count);
      var counted := CountAll(rows, count);
      assert counted[..n] == CountAll(init, count);
      assert counted[n] == Counted(last, count);
      if Fits(count)(last) {
        CountAllAppend(Filter(init, Fits(count)), [last], count);
      }
    }
  }

  /** The reviews the pipeline keeps, before `Time` is dropped: the last
      `top_n` of the recent cut whose `combined` text is within the token
      budget. */
  function Kept(rows: seq<RawReview>, sort: seq<Review> -> seq<Review>, count: string -> nat): seq<Review>
  {
    Tail(Filter(Recent(rows, sort), Fits(count)), TopN)
  }

  /** `loadAndInspectDataset()`: the kept reviews with `Time` dropped and
      `n_tokens` added, one row each and in the same order; as many rows as
      the recent cut has within the budget, but no more than `top_n`; every
      row within the budget, counting the tokens of its own `combined` text,
      which follows the template. */
  function LoadAndInspectDataset(rows: seq<RawReview>, sort: seq<Review> -> seq<Review>, count: string -> nat)
    : (r: seq<PreparedReview>)
    requires Sorts(sort, ByTime)
    ensures r == CountAll(Kept(rows, sort, count), count)
    ensures var fits := Filter(Recent(rows, sort), Fits(count));
            |r| == if |fits| <= TopN then |fits| else TopN
    ensures PreparedFrom(r, Recent(rows, sort), count)
  {
    var recent := Recent(rows, sort);
    FinalRows(rows, sort, count);
    CountAllFilter(recent, count);
    CountAllTail(Filter(recent, Fits(count)), count, TopN);
    Tail(Filter(CountAll(recent, count), ReviewWithinBudget), TopN)
  }

  /** The kept reviews are in ascending `Time` order, so the rows of the
      result, which are the kept reviews one for one, are too. */
  lemma KeptInTimeOrder(rows: seq<RawReview>, sort: seq<Review> -> seq<Review>, count: string -> nat)
    requires Sorts(sort, ByTime)
    ensures Ordered(Kept(rows, sort, count), ByTime)
  {
    var recent := Recent(rows, sort);
    TailOrdered(sort(Clean(rows)), ByTime, 2 * TopN);
    FilterOrdered(recent, Fits(count), ByTime);
    TailOrdered(Filter(recent, Fits(count)), ByTime, TopN);
  }

  /** The final cut keeps the latest reviews within the budget: every recent
      review within the budget that the last `tail` cuts away is no later
      than any kept review. */
  lemma KeptAreLatest(rows: seq<RawReview>, sort: seq<Review> -> seq<Review>, count: string -> nat)
    requires Sorts(sort, ByTime)
    ensures var fits := Filter(Recent(rows, sort), Fits(count));
            forall y, x :: y in multiset(fits) - multiset(Kept(rows, sort, count)) && x in Kept(rows, sort, count)
              ==> y.time <= x.time
  {
    var recent := Recent(rows, sort);
    var fits := Filter(recent, Fits(count));
    TailOrdered(sort(Clean(rows)), ByTime, 2 * TopN);
    FilterOrdered(recent, Fits(count), ByTime);
    TailKeepsLast(fits, fits, ByTime, TopN);
  }
}

=== FILE: embedding.dfy ===
/** Embedding acquisition: `getEmbedding`, which sanitises its input before
    the provider call, the embedding column written next to a prepared frame,
    and the regenerate-or-reuse decision of `obtainDataSet`.  The provider is
    a function from the text it receives to a vector; the JSON encoding of a
    vector is a function `stringify`. */
module Embedding {
  import opened Wrappers
  import opened Text
  import opened Vectors
  import opened Seqs
  import opened Dataset

  /** `text.replace("\n", " ")`: only the first newline becomes a space. */
  function Sanitize(text: string): (r: string)
    ensures |r| == |text|
    ensures !Contains(text, "\n") ==> r == text
    ensures Find(text, "\n").Some? ==>
              var i := Find(text, "\n").value;
              r[i] == ' ' && forall j :: 0 <= j < |text| && j != i ==> r[j] == text[j]
  {
    ReplaceFirst(text, "\n", " ")
  }

  /** Newlines after the first survive sanitisation. */
  lemma SanitizeExample()
    ensures Sanitize("a\nb\nc") == "a b\nc"
  {
    var s := "a\nb\nc";
    assert s[1..2] == "\n" && s[0..1] == "a";
    ReplaceFirstAt(s, "\n", " ", 1);
  }

  /** `getEmbedding(client, text)`: the vector the provider returns for the
      sanitised text. */
  function GetEmbedding(provider: string -> Vector, text: string): Vector
  {
    provider(Sanitize(text))
  }

  /** The `embedding` column of `getEmbeddingsAndSaveToCsv`: one JSON-encoded
      vector per `combined` text, in row order. */
  function EmbeddingColumn(combined: seq<string>, provider: string -> Vector, stringify: Vector -> string)
    : seq<string>
  {
    seq(|combined|, i requires 0 <= i < |combined| => stringify(GetEmbedding(provider, combined[i])))
  }

  /** How `obtainDataSet` ends. */
  datatype Status =
    | CacheMissing         // `dataSetExists` threw outside the `try`
    | KeptExisting         // the user declined to regenerate
    | LoadFailed(e: string) // the load threw inside the `try` and was logged
    | Regenerated(column: seq<string>)

  /** The end of `obtainDataSet`, whether it loaded the dataset, and the texts
      it sent to the embedding provider, in order. */
  datatype Obtained = Obtained(status: Status, loaded: bool, sent: seq<string>)

  /** `obtainDataSet(openai)`.  `cacheExists` is whether the embeddings file
      exists (`Deno.lstatSync` throws when it does not, and returns a truthy
      record when it does); `regenerate` is the user's answer; `load` is the
      `combined` column of `loadAndInspectDataset()` or the error it throws. */
  function ObtainDataSet(cacheExists: bool, regenerate: bool, load: Result<seq<string>>,
                         provider: string -> Vector, stringify: Vector -> string): (r: Obtained)
    ensures !cacheExists ==> r == Obtained(CacheMissing, false, [])
    ensures cacheExists && !regenerate ==> r == Obtained(KeptExisting, false, [])
    ensures r.status.Regenerated? <==> cacheExists && regenerate && load.Success?
    ensures r.status.Regenerated? ==>
              && r.status.column == EmbeddingColumn(load.value, provider, stringify)
              && |r.sent| == |load.value| + 1 == |r.status.column| + 1
              && (forall i :: 0 <= i < |load.value| ==> r.sent[i] == Sanitize(load.value[i]))
              && (forall i :: 0 <= i < |r.status.column| ==> r.status.column[i] == stringify(provider(r.sent[i])))
              && r.sent[|load.value|] == "Hi"
    ensures r.status.LoadFailed? <==> cacheExists && regenerate && load.Failure?
    ensures r.loaded <==> cacheExists && regenerate
  {
    if !cacheExists then Obtained(CacheMissing, false, [])
    else if !regenerate then Obtained(KeptExisting, false, [])
    else match load
      case Failure(e) => Obtained(LoadFailed(e), true, [])
      case Success(combined) =>
        var sanitized := seq(|combined|, i requires 0 <= i < |combined| => Sanitize(combined[i]));
        var sent := sanitized + [Sanitize("Hi")];
        var column := EmbeddingColumn(combined, provider, stringify);
        assert |column| == |combined|;
        forall i | 0 <= i < |column|
          ensures column[i] == stringify(provider(sent[i]))
        {
          assert sent[i] == sanitized[i] == Sanitize(combined[i]);
          assert column[i] == stringify(GetEmbedding(provider, combined[i]));
        }
        Obtained(Regenerated(column), true, sent)
  }

  /** The `combined` column of the reviews `loadAndInspectDataset()` returns. */
  function CombinedOf(data: seq<PreparedReview>): seq<string>
  {
    seq(|data|, i requires 0 <= i < |data| => data[i].combined)
  }

  /** A regeneration embeds the reviews of `loadAndInspectDataset()`: one
      stored embedding per prepared review, in order, each the provider's
      answer for that review's sanitised `combined` text. */
  lemma RegeneratesPreparedReviews(rows: seq<RawReview>, sort: seq<Review> -> seq<Review>, count: string -> nat,
                                   provider: string -> Vector, stringify: Vector -> string)
    requires Sorts(sort, ByTime)
    ensures var data := LoadAndInspectDataset(rows, sort, count);
            var r := ObtainDataSet(true, true, Success(CombinedOf(data)), provider, stringify);
            && r.status.Regenerated?
            && |r.status.column| == |data| <= TopN
            && forall i :: 0 <= i < |data| ==>
                 r.status.column[i] == stringify(provider(Sanitize(data[i].combined)))
  {
    var data := LoadAndInspectDataset(rows, sort, count);
    var r := ObtainDataSet(true, true, Success(CombinedOf(data)), provider, stringify);
    forall i | 0 <= i < |data|
      ensures r.status.column[i] == stringify(provider(Sanitize(data[i].combined)))
    {
      assert r.sent[i] == Sanitize(CombinedOf(data)[i]);
    }
  }
}

=== FILE: search.dfy ===
/** Semantic text search over the embeddings file: one cosine similarity per
    row against the query's embedding, a descending sort, the top three rows,
    and the display rewrite of their `combined` text.  The CSV reader and the
    JSON parse of the `embedding` column are not modelled: rows arrive with
    their embedding already parsed. */
module Search {
  import opened Wrappers
  import opened Text
  import opened Seqs
  import opened Vectors
  import opened Embedding
  import opened Dataset

  /** The number of results kept (`head(3)`). */
  const TopK: nat := 3

  /** A row of the embeddings file: its `combined` text and its embedding. */
  datatype EmbeddedRow = EmbeddedRow(combined: string, embedding: Vector)

  /** A row with its `similarity` column. */
  datatype Scored = Scored(combined: string, similarity: Number)

  /** `String(combined).replace("Title: ", "").replace("; Content:", ": ")`. */
  function Display(combined: string): string
  {
    ReplaceFirst(ReplaceFirst(combined, "Title: ", ""), "; Content:", ": ")
  }

  /** The first rewrite removes the leading `"Title: "`. */
  lemma DropTitle(t: string, x: string)
    ensures ReplaceFirst("Title: " + t + "; Content: " + x, "Title: ", "") == t + "; Content: " + x
  {
    var tail := t + "; Content: " + x;
    assert "Title: " + t + "; Content: " + x == "Title: " + tail;
    ReplaceFirstPrefix("Title: ", tail, "");
    assert "" + tail == tail;
  }

  /** The second rewrite replaces the template's `"; Content:"` when the
      title does not contain it. */
  lemma JoinContent(t: string, x: string)
    requires !Contains(t, "; Content:")
    ensures ReplaceFirst(t + "; Content: " + x, "; Content:", ": ") == t + ":  " + x
  {
    var b := "; Content: " + x;
    var s := t + b;
    assert s == t + "; Content: " + x;
    assert b[0..10] == "; Content:";
    FindAtJoint(t, b, "; Content:");
    assert s[..|t|] == t;
    assert s[|t| + 10..] == " " + x;
  }

  /** On a text built by the `combined` template from a title that does not
      contain `"; Content:"`, the display rewrite gives the title, a colon,
      two spaces (the one from the rewrite and the one the template left)
      and the body. */
  lemma DisplayOfTemplate(t: string, x: string)
    requires !Contains(t, "; Content:")
    ensures Display("Title: " + t + "; Content: " + x) == t + ":  " + x
  {
    DropTitle(t, x);
    JoinContent(t, x);
  }

  /** The display text of a prepared review with a title free of
      `"; Content:"`. */
  lemma DisplayOfCombine(title: string, body: string)
    requires !Contains(Strip(title), "; Content:")
    ensures Display(Combine(title, body)) == Strip(title) + ":  " + Strip(body)
  {
    DisplayOfTemplate(Strip(title), Strip(body));
  }

  /** Every row's embedding has the query's length. */
  predicate SameLengths(rows: seq<EmbeddedRow>, q: Vector)
  {
    forall i :: 0 <= i < |rows| ==> |rows[i].embedding| == |q|
  }

  /** The `similarity` column: `cosineSimilarity(x, q)` for every row, in row
      order; the first row whose length differs throws. */
  function Similarities(rows: seq<EmbeddedRow>, q: Vector, sqrt: real -> real): (r: Result<seq<Scored>>)
    requires IsSqrt(sqrt)
    ensures r.Success? <==> SameLengths(rows, q)
    ensures r.Failure? ==> r.error == "Vectors must be the same length"
    ensures r.Success? ==>
              && |r.value| == |rows|
              && forall i :: 0 <= i < |rows| ==>
                   r.value[i] == Scored(rows[i].combined, CosineSimilarity(rows[i].embedding, q, sqrt).value)
  {
    if rows == [] then Success([])
    else
      var init := rows[..|rows| - 1];
      var last := rows[|rows| - 1];
      match Similarities(init, q, sqrt)
      case Failure(e) => Failure(e)
      case Success(s) =>
        match CosineSimilarity(last.embedding, q, sqrt)
        case Failure(e) => Failure(e)
        case Success(c) => Success(s + [Scored(last.combined, c)])
  }

  /** Rows in polars' `sort("similarity", true)` order: a higher similarity
      first, and `NaN` above every number. */
  predicate RanksAbove(x: Scored, y: Scored)
  {
    x.similarity.NaN? || (y.similarity.Finite? && x.similarity.value >= y.similarity.value)
  }

  /** The three best-ranked rows, before the display rewrite. */
  function Top(scored: seq<Scored>, sort: seq<Scored> -> seq<Scored>): (r: seq<Scored>)
    requires Sorts(sort, RanksAbove)
    ensures |r| == if |scored| <= TopK then |scored| else TopK
    ensures Ordered(r, RanksAbove)
    ensures forall y, x :: y in multiset(scored) - multiset(r) && x in r ==> RanksAbove(x, y)
    ensures multiset(r) <= multiset(scored)
  {
    var sorted := sort(scored);
    HeadKeepsFirst(scored, sorted, RanksAbove, TopK);
    assert sorted == Head(sorted, TopK) + sorted[|Head(sorted, TopK)|..];
    Head(sorted, TopK)
  }

  /** The display rewrite of each kept row. */
  function DisplayAll(rows: seq<Scored>): seq<string>
  {
    seq(|rows|, i requires 0 <= i < |rows| => Display(rows[i].combined))
  }

  /** The search proper, from the query's embedding: the length error of any
      row, or the display texts of at most three rows, best first, that rank
      above every row left out. */
  function TopMatches(rows: seq<EmbeddedRow>, q: Vector, sort: seq<Scored> -> seq<Scored>, sqrt: real -> real)
    : (r: Result<seq<string>>)
    requires IsSqrt(sqrt) && Sorts(sort, RanksAbove)
    ensures r.Success? <==> SameLengths(rows, q)
    ensures r.Failure? ==> r.error == "Vectors must be the same length"
    ensures r.Success? ==>
              && |r.value| == (if |rows| <= TopK then |rows| else TopK)
              && r.value == DisplayAll(Top(Similarities(rows, q, sqrt).value, sort))
  {
    match Similarities(rows, q, sqrt)
    case Failure(e) => Failure(e)
    case Success(scored) => Success(DisplayAll(Top(scored, sort)))
  }

  /** How a search with a typed query ends. */
  datatype SearchOutcome =
    | Skipped
    | Searched(sent: string, results: Result<seq<string>>)

  /** `semanticTextSearchUsingEmbeddings(openai)`: a missing or empty query
      ends the search before any embedding call; any other query, blanks
      included, is sanitised, embedded and searched. */
  function SemanticTextSearch(query: Option<string>, rows: seq<EmbeddedRow>, provider: string -> Vector,
                              sort: seq<Scored> -> seq<Scored>, sqrt: real -> real): (r: SearchOutcome)
    requires IsSqrt(sqrt) && Sorts(sort, RanksAbove)
    ensures r.Skipped? <==> query.None? || query.value == ""
    ensures r.Searched? ==>
              && r.sent == Sanitize(query.value)
              && r.results == TopMatches(rows, provider(r.sent), sort, sqrt)
  {
    match query
    case None => Skipped
    case Some(text) =>
      if text == "" then Skipped
      else Searched(Sanitize(text), TopMatches(rows, GetEmbedding(provider, text), sort, sqrt))
  }
}

=== FILE: seqs.dfy ===
/** Sequence operations behind the dataframe transforms of the source
    (polars `tail`, `head`, `filter`, `sort`) and the orderings they produce. */
module Seqs {

  /** polars `DataFrame.tail(n)`: the last `n` rows, or all rows when there
      are fewer. */
  function Tail<T>(s: seq<T>, n: nat): (r: seq<T>)
    ensures |r| == if |s| <= n then |s| else n
    ensures r == s[|s| - |r|..]
  {
    if |s| <= n then s else s[|s| - n..]
  }

  /** polars `DataFrame.head(n)`, JavaScript `s.slice(0, n)`, Python `s[:n]`:
      the first `n` elements, or all of them when there are fewer. */
  function Head<T>(s: seq<T>, n: nat): (r: seq<T>)
    ensures |r| == if |s| <= n then |s| else n
    ensures r == s[..|r|]
  {
    if |s| <= n then s else s[..n]
  }

  /** polars `DataFrame.filter(p)` / JavaScript `Array.filter(p)`: the rows
      satisfying `p`, in their original order. */
  function Filter<T>(s: seq<T>, p: T -> bool): (r: seq<T>)
    ensures |r| <= |s|
    ensures forall i :: 0 <= i < |r| ==> r[i] in s && p(r[i])
    ensures forall i :: 0 <= i < |s| && p(s[i]) ==> s[i] in r
  {
    if s == [] then []
    else
      var init := s[..|s| - 1];
      assert s == init + [s[|s| - 1]];
      if p(s[|s| - 1]) then Filter(init, p) + [s[|s| - 1]] else Filter(init, p)
  }

  /** A filter keeps each element at most as often as it occurs. */
  lemma {:induction false} FilterSubMultiset<T>(s: seq<T>, p: T -> bool)
    ensures multiset(Filter(s, p)) <= multiset(s)
  {
    if s != [] {
      var init := s[..|s| - 1];
      assert s == init + [s[|s| - 1]];
      FilterSubMultiset(init, p);
    }
  }

  /** `s` is ordered so that each row comes `before` every later one. */
  ghost predicate Ordered<T>(s: seq<T>, before: (T, T) -> bool)
  {
    forall i, j :: 0 <= i < j < |s| ==> before(s[i], s[j])
  }

  /** A filter keeps the order of what it keeps. */
  lemma {:induction false} FilterOrdered<T>(s: seq<T>, p: T -> bool, before: (T, T) -> bool)
    requires Ordered(s, before)
    ensures Ordered(Filter(s, p), before)
  {
    if s != [] {
      var n := |s| - 1;
      var init, last := s[..n], s[n];
      assert Ordered(init, before);
      FilterOrdered(init, p, before);
      var f := Filter(init, p);
      if p(last) {
        FilterBefore(init, p, before, last);
        OrderedSnoc(f, last, before);
      }
    }
  }

  /** What comes before `x` still does after filtering. */
  lemma {:induction false} FilterBefore<T>(s: seq<T>, p: T -> bool, before: (T, T) -> bool, x: T)
    requires forall i :: 0 <= i < |s| ==> before(s[i], x)
    ensures forall i :: 0 <= i < |Filter(s, p)| ==> before(Filter(s, p)[i], x)
  {
    if s != [] {
      var n := |s| - 1;
      var init := s[..n];
      assert forall i :: 0 <= i < n ==> init[i] == s[i];
      FilterBefore(init, p, before, x);
      var f := Filter(init, p);
      if p(s[n]) {
        var r := f + [s[n]];
        assert forall i :: 0 <= i < |f| ==> r[i] == f[i];
      }
    }
  }

  /** An ordered sequence stays ordered when an element that comes after all
      of it is appended. */
  lemma OrderedSnoc<T>(s: seq<T>, x: T, before: (T, T) -> bool)
    requires Ordered(s, before)
    requires forall i :: 0 <= i < |s| ==> before(s[i], x)
    ensures Ordered(s + [x], before)
  {
    var r := s + [x];
    forall i, j | 0 <= i < j < |r|
      ensures before(r[i], r[j])
    {
      assert r[i] == s[i];
      if j < |s| {
        assert r[j] == s[j];
      }
    }
  }

  /** Filtering a concatenation filters each part and keeps their order. */
  lemma {:induction false} FilterAppend<T>(s: seq<T>, t: seq<T>, p: T -> bool)
    ensures Filter(s + t, p) == Filter(s, p) + Filter(t, p)
  {
    if t != [] {
      var n := |t| - 1;
      assert (s + t)[..|s + t| - 1] == s + t[..n];
      FilterAppend(s, t[..n], p);
    } else {
      assert s + t == s;
    }
  }

  /** A filter keeps a row exactly when `p` holds of it. */
  lemma FilterSingle<T>(x: T, p: T -> bool)
    ensures Filter([x], p) == if p(x) then [x] else []
  {
    assert [x][..0] == [];
  }

  /** `sort` behaves as polars `sort`: its output is a permutation of its
      input ordered by `before`.  Nothing is assumed about the relative order
      of rows with equal keys (the sort need not be stable). */
  ghost predicate Sorts<T(!new)>(sort: seq<T> -> seq<T>, before: (T, T) -> bool)
  {
    forall s :: multiset(sort(s)) == multiset(s) && Ordered(sort(s), before)
  }

  /** The last `n` elements of an ordered sequence are ordered. */
  lemma TailOrdered<T>(s: seq<T>, before: (T, T) -> bool, n: nat)
    requires Ordered(s, before)
    ensures Ordered(Tail(s, n), before)
  {
    var t := Tail(s, n);
    var d := |s| - |t|;
    forall i, j | 0 <= i < j < |t|
      ensures before(t[i], t[j])
    {
      assert t[i] == s[d + i] && t[j] == s[d + j];
    }
  }

  /** Cutting an ordered sequence at `n`: everything left of the cut comes
      before everything right of it. */
  lemma OrderedCut<T>(s: seq<T>, before: (T, T) -> bool, n: nat)
    requires Ordered(s, before) && n <= |s|
    ensures forall x, y :: x in s[..n] && y in s[n..] ==> before(x, y)
  {
    forall x, y | x in s[..n] && y in s[n..]
      ensures before(x, y)
    {
      var i :| 0 <= i < n && s[..n][i] == x;
      var j :| 0 <= j < |s| - n && s[n..][j] == y;
      assert s[i] == x && s[n + j] == y;
    }
  }

  /** The tail of a sorted permutation of `input` keeps rows that come after
      every row it leaves out, counted with multiplicity. */
  lemma TailKeepsLast<T>(input: seq<T>, sorted: seq<T>, before: (T, T) -> bool, n: nat)
    requires multiset(sorted) == multiset(input) && Ordered(sorted, before)
    ensures forall y, x :: y in multiset(input) - multiset(Tail(sorted, n)) && x in Tail(sorted, n)
              ==> before(y, x)
  {
    var cut := |sorted| - |Tail(sorted, n)|;
    assert sorted == sorted[..cut] + sorted[cut..];
    assert multiset(input) - multiset(Tail(sorted, n)) == multiset(sorted[..cut]);
    OrderedCut(sorted, before, cut);
  }

  /** The head of a sorted permutation of `input` keeps rows that come before
      every row it leaves out, counted with multiplicity. */
  lemma HeadKeepsFirst<T>(input: seq<T>, sorted: seq<T>, before: (T, T) -> bool, n: nat)
    requires multiset(sorted) == multiset(input) && Ordered(sorted, before)
    ensures forall y, x :: y in multiset(input) - multiset(Head(sorted, n)) && x in Head(sorted, n)
              ==> before(x, y)
  {
    var cut := |Head(sorted, n)|;
    assert sorted == sorted[..cut] + sorted[cut..];
    assert multiset(input) - multiset(Head(sorted, n)) == multiset(sorted[cut..]);
    OrderedCut(sorted, before, cut);
  }

  /** Left fold of `+` from 0 (JavaScript `reduce((a, b) => a + b, 0)`). */
  function Sum(s: seq<real>): real
  {
    if s == [] then 0.0 else Sum(s[..|s| - 1]) + s[|s| - 1]
  }

  /** A sum of `n` terms lies between `n` times the least and `n` times the
      greatest of them. */
  lemma {:induction false} SumBounds(s: seq<real>, lo: real, hi: real)
    requires forall i :: 0 <= i < |s| ==> lo <= s[i] <= hi
    ensures |s| as real * lo <= Sum(s) <= |s| as real * hi
  {
    if s != [] {
      SumBounds(s[..|s| - 1], lo, hi);
    }
  }
}

=== FILE: text.dfy ===
/** String primitives of the two runtimes the source runs on: JavaScript's
    `indexOf`, `replace` with a string pattern (first occurrence only),
    `includes`, `slice`, `join`, `repeat`; Python's `str.split` with an explicit
    separator, `str.replace` of a single character, slicing; and polars'
    `str.strip`.  Strings are sequences of Unicode scalar values; the UTF-16
    code units JavaScript counts in are not modelled. */
module Text {
  import opened Wrappers

  /** `p` occurs in `s` starting at index `i`. */
  predicate OccursAt(s: string, p: string, i: nat)
  {
    i + |p| <= |s| && s[i..i + |p|] == p
  }

  /** The least index at or after `from` at which `p` occurs in `s`. */
  function FindFrom(s: string, p: string, from: nat): (r: Option<nat>)
    decreases |s| - from
    ensures r.Some? ==> from <= r.value && OccursAt(s, p, r.value)
    ensures r.Some? ==> forall j :: from <= j < r.value ==> !OccursAt(s, p, j)
    ensures r.None? ==> forall j: nat :: from <= j ==> !OccursAt(s, p, j)
  {
    if from + |p| > |s| then None
    else if s[from..from + |p|] == p then Some(from)
    else FindFrom(s, p, from + 1)
  }

  /** JavaScript `s.indexOf(p)` / Python `s.find(p)`, with `None` for -1. */
  function Find(s: string, p: string): Option<nat>
  {
    FindFrom(s, p, 0)
  }

  /** JavaScript `s.includes(p)` / Python `p in s`. */
  predicate Contains(s: string, p: string)
  {
    Find(s, p).Some?
  }

  lemma ContainsIff(s: string, p: string)
    ensures Contains(s, p) <==> exists i: nat :: OccursAt(s, p, i)
  {
  }

  lemma NotContains(s: string, p: string, j: nat)
    requires !Contains(s, p)
    ensures !OccursAt(s, p, j)
  {
  }

  /** An occurrence inside a prefix of `s` is an occurrence in `s`. */
  lemma OccursInPrefix(s: string, k: nat, p: string, j: nat)
    requires k <= |s| && OccursAt(s[..k], p, j)
    ensures OccursAt(s, p, j)
  {
    assert s[..k][j..j + |p|] == s[j..j + |p|];
  }

  /** An occurrence inside a suffix of `s` is an occurrence in `s`. */
  lemma OccursInSuffix(s: string, k: nat, p: string, j: nat)
    requires k <= |s| && OccursAt(s[k..], p, j)
    ensures OccursAt(s, p, k + j)
  {
    assert s[k..][j..j + |p|] == s[k + j..k + j + |p|];
  }

  /** If `p` occurs at `i` and nowhere before, `Find` returns `i`. */
  lemma FindIsFirst(s: string, p: string, i: nat)
    requires OccursAt(s, p, i)
    requires forall j :: 0 <= j < i ==> !OccursAt(s, p, j)
    ensures Find(s, p) == Some(i)
  {
  }

  /** JavaScript `s.replace(p, rep)` with a string pattern: only the FIRST
      occurrence of `p` is replaced; without one, `s` is returned unchanged. */
  function ReplaceFirst(s: string, p: string, rep: string): (r: string)
    ensures !Contains(s, p) ==> r == s
    ensures Contains(s, p) ==> |r| == |s| - |p| + |rep|
  {
    match Find(s, p)
    case None => s
    case Some(i) => s[..i] + rep + s[i + |p|..]
  }

  /** The replacement happens at the first occurrence and nowhere else. */
  lemma ReplaceFirstAt(s: string, p: string, rep: string, i: nat)
    requires OccursAt(s, p, i)
    requires forall j :: 0 <= j < i ==> !OccursAt(s, p, j)
    ensures ReplaceFirst(s, p, rep) == s[..i] + rep + s[i + |p|..]
  {
    FindIsFirst(s, p, i);
  }

  /** A pattern that is a prefix is replaced there: `(p + t).replace(p, rep)`. */
  lemma ReplaceFirstPrefix(p: string, t: string, rep: string)
    ensures ReplaceFirst(p + t, p, rep) == rep + t
  {
    var s := p + t;
    assert s[0..|p|] == p;
    ReplaceFirstAt(s, p, rep, 0);
    assert s[|p|..] == t;
  }

  /** `b` starts with `p`, `a` does not contain `p`, and the first character
      of `p` does not recur inside `p`: then the first occurrence of `p` in
      `a + b` is the one where `b` begins. */
  lemma FindAtJoint(a: string, b: string, p: string)
    requires |p| > 0 && OccursAt(b, p, 0) && !Contains(a, p)
    requires forall k :: 0 < k < |p| ==> p[k] != p[0]
    ensures Find(a + b, p) == Some(|a|)
  {
    var s := a + b;
    assert s[|a|..|a| + |p|] == b[0..|p|];
    forall j | 0 <= j < |a|
      ensures !OccursAt(s, p, j)
    {
      if j + |p| <= |a| {
        assert a[j..j + |p|] == s[j..j + |p|];
        NotContains(a, p, j);
      } else {
        assert s[|a|] == p[0];
      }
    }
    FindIsFirst(s, p, |a|);
  }

  /** A middle piece `m` whose first character is not in `p`, and which does
      not hold the first character of `p`, keeps `p` from occurring across it:
      `p` occurs in `a + m + b` only if it occurs in `a` or in `b`. */
  lemma NoOccurrenceAcross(a: string, m: string, b: string, p: string)
    requires |p| > 0 && |m| > 0 && m[0] !in p && p[0] !in m
    requires !Contains(a, p) && !Contains(b, p)
    ensures !Contains(a + m + b, p)
  {
    var s := a + m + b;
    forall j: nat
      ensures !OccursAt(s, p, j)
    {
      if j + |p| <= |a| {
        assert a[j..j + |p|] == s[j..j + |p|];
        NotContains(a, p, j);
      } else if j < |a| {
        assert s[|a|] == m[0];
      } else if j < |a| + |m| {
        assert s[j] == m[j - |a|];
      } else if j + |p| <= |s| {
        var k := j - |a| - |m|;
        SliceOfSuffix(a + m, b, k, |p|);
        NotContains(b, p, k);
      }
    }
    assert !Contains(s, p);
  }

  /** A slice inside the second part of a concatenation. */
  lemma SliceOfSuffix(x: string, y: string, k: nat, n: nat)
    requires k + n <= |y|
    ensures (x + y)[|x| + k..|x| + k + n] == y[k..k + n]
  {
  }

  /** Python `sep.join(parts)` / JavaScript `parts.join(sep)`. */
  function Join(parts: seq<string>, sep: string): string
  {
    if |parts| == 0 then ""
    else if |parts| == 1 then parts[0]
    else parts[0] + sep + Join(parts[1..], sep)
  }

  /** Python `s.split(sep)` for a non-empty separator: the pieces between
      successive non-overlapping occurrences of `sep`, scanned left to right. */
  function Split(s: string, sep: string): (parts: seq<string>)
    requires |sep| > 0
    decreases |s|
    ensures |parts| >= 1
    ensures forall k :: 0 <= k < |parts| ==> !Contains(parts[k], sep)
  {
    match Find(s, sep)
    case None => [s]
    case Some(i) =>
      PrefixBeforeFirst(s, sep, i);
      [s[..i]] + Split(s[i + |sep|..], sep)
  }

  /** The text before the first occurrence of `p` does not contain `p`. */
  lemma PrefixBeforeFirst(s: string, p: string, i: nat)
    requires |p| > 0 && Find(s, p) == Some(i)
    ensures !Contains(s[..i], p)
  {
    assert FindFrom(s, p, 0) == Some(i);
    forall j: nat
      ensures !OccursAt(s[..i], p, j)
    {
      if j + |p| <= i {
        assert s[..i][j..j + |p|] == s[j..j + |p|];
        assert !OccursAt(s, p, j);
      }
    }
  }

  /** Joining a part in front of at least one other adds one separator. */
  lemma JoinCons(part: string, parts: seq<string>, sep: string)
    requires |parts| >= 1
    ensures Join([part] + parts, sep) == part + sep + Join(parts, sep)
  {
    assert ([part] + parts)[1..] == parts;
  }

  /** Splitting and re-joining with the same separator gives the text back. */
  lemma {:induction false} JoinSplit(s: string, sep: string)
    requires |sep| > 0
    ensures Join(Split(s, sep), sep) == s
    decreases |s|
  {
    match Find(s, sep)
    case None =>
    case Some(i) =>
      var rest := s[i + |sep|..];
      var tail := Split(rest, sep);
      assert Split(s, sep) == [s[..i]] + tail;
      JoinSplit(rest, sep);
      JoinCons(s[..i], tail, sep);
      assert s[i..i + |sep|] == sep;
      assert s == s[..i] + s[i..i + |sep|] + rest;
  }

  /** Python `str.strip()` / polars `str.strip`: Unicode White_Space, which is
      what Rust's `char::is_whitespace` tests. */
  const Whitespace: set<char> := {
    '\t', '\n', '\U{000B}', '\U{000C}', '\r', ' ', '\U{0085}', '\U{00A0}', '\U{1680}',
    '\U{2000}', '\U{2001}', '\U{2002}', '\U{2003}', '\U{2004}', '\U{2005}', '\U{2006}',
    '\U{2007}', '\U{2008}', '\U{2009}', '\U{200A}', '\U{2028}', '\U{2029}', '\U{202F}',
    '\U{205F}', '\U{3000}'
  }

  predicate IsWhitespace(c: char)
  {
    c in Whitespace
  }

  /** Where the leading whitespace of `s` ends, scanning from `k`. */
  function LeadingEnd(s: string, k: nat): (n: nat)
    requires k <= |s| && forall i :: 0 <= i < k ==> IsWhitespace(s[i])
    decreases |s| - k
    ensures k <= n <= |s|
    ensures forall i :: 0 <= i < n ==> IsWhitespace(s[i])
    ensures n < |s| ==> !IsWhitespace(s[n])
  {
    if k < |s| && IsWhitespace(s[k]) then LeadingEnd(s, k + 1) else k
  }

  /** Where the trailing whitespace of `s` starts, scanning down from `k`
      but not below `lo`. */
  function TrailingStart(s: string, lo: nat, k: nat): (n: nat)
    requires lo <= k <= |s| && forall i :: k <= i < |s| ==> IsWhitespace(s[i])
    decreases k
    ensures lo <= n <= k
    ensures forall i :: n <= i < |s| ==> IsWhitespace(s[i])
    ensures n > lo ==> !IsWhitespace(s[n - 1])
  {
    if k > lo && IsWhitespace(s[k - 1]) then TrailingStart(s, lo, k - 1) else k
  }

  /** Where the stripped text starts and ends inside the original. */
  function StripStart(s: string): nat
  {
    LeadingEnd(s, 0)
  }

  function StripEnd(s: string): (n: nat)
    ensures StripStart(s) <= n <= |s|
  {
    TrailingStart(s, StripStart(s), |s|)
  }

  /** Polars `str.strip()`: the infix of `s` between its leading and its
      trailing whitespace. */
  function Strip(s: string): (r: string)
    ensures r == s[StripStart(s)..StripEnd(s)]
    ensures forall i :: 0 <= i < StripStart(s) ==> IsWhitespace(s[i])
    ensures forall i :: StripEnd(s) <= i < |s| ==> IsWhitespace(s[i])
    ensures r == [] || (!IsWhitespace(r[0]) && !IsWhitespace(r[|r| - 1]))
  {
    s[StripStart(s)..StripEnd(s)]
  }

  /** Stripping twice is stripping once. */
  lemma StripIdempotent(s: string)
    ensures Strip(Strip(s)) == Strip(s)
  {
    var r := Strip(s);
    if r != [] {
      assert StripStart(r) == 0;
      assert StripEnd(r) == |r|;
    }
  }

  /** Python `s[n:]`: empty when `s` is shorter than `n`. */
  function Drop(s: string, n: nat): (r: string)
    ensures |r| == if |s| <= n then 0 else |s| - n
    ensures r == s[|s| - |r|..]
  {
    if |s| <= n then "" else s[n..]
  }

  /** Python `s.replace(c, rep)` for a one-character pattern `c`: every
      occurrence, left to right. */
  function ReplaceChar(s: string, c: char, rep: string): (r: string)
    ensures forall ch :: ch in r ==> ch in rep || (ch in s && ch != c)
    ensures c !in s ==> r == s
  {
    if s == [] then ""
    else (if s[0] == c then rep else [s[0]]) + ReplaceChar(s[1..], c, rep)
  }

  /** One character is replaced exactly when it is `c`. */
  lemma ReplaceCharSingle(x: char, c: char, rep: string)
    ensures ReplaceChar([x], c, rep) == if x == c then rep else [x]
  {
    assert [x][1..] == [];
  }

  /** Replacing works character by character, left to right: together with
      `ReplaceCharSingle` this says every `c` becomes `rep` and every other
      character is kept, in order. */
  lemma {:induction false} ReplaceCharAppend(a: string, b: string, c: char, rep: string)
    ensures ReplaceChar(a + b, c, rep) == ReplaceChar(a, c, rep) + ReplaceChar(b, c, rep)
  {
    if a == [] {
      assert a + b == b;
    } else {
      assert (a + b)[0] == a[0];
      assert (a + b)[1..] == a[1..] + b;
      ReplaceCharAppend(a[1..], b, c, rep);
    }
  }

  /** JavaScript `String(n)` for an integer. */
  function IntToString(n: int): (r: string)
    ensures |r| > 0
  {
    if n < 0 then "-" + NatToString(-n) else NatToString(n)
  }

  function NatToString(n: nat): (r: string)
    ensures |r| > 0 && forall k :: 0 <= k < |r| ==> '0' <= r[k] <= '9'
  {
    var d := [(n % 10) as char + '0'];
    if n < 10 then d else NatToString(n / 10) + d
  }
}

=== FILE: tokenize.dfy ===
/** The token-budget sentence chunker `split_into_many` and the row loop of
    `tokenize_action` (jennifer/tokenize_action.py).  The cl100k_base
    tokenizer is a parameter that gives the token count of a text. */
module TokenizeAction {
  import opened Wrappers
  import opened Text

  /** Number of tokens the tokenizer produces for a text. */
  type Tokenizer = string -> nat

  /** `MAX_TOKENS`: the budget of one chunk and the threshold for splitting. */
  const MaxTokens: nat := 500

  /** What `split_into_many` charges for one sentence: its token count with a
      leading space. */
  function SentenceCost(count: Tokenizer, sentence: string): nat
  {
    count(" " + sentence)
  }

  /** A sentence no longer than the budget; any other one is skipped. */
  predicate Fits(count: Tokenizer, maxTokens: nat, sentence: string)
  {
    SentenceCost(count, sentence) <= maxTokens
  }

  /** The sum of the costs of the sentences of a chunk. */
  function TotalCost(count: Tokenizer, chunk: seq<string>): nat
  {
    if chunk == [] then 0
    else TotalCost(count, chunk[..|chunk| - 1]) + SentenceCost(count, chunk[|chunk| - 1])
  }

  /** A non-empty chunk of k sentences whose costs add up, with k - 1 more
      for the separators `tokens_so_far` counts, to at most the budget. */
  ghost predicate WithinBudget(count: Tokenizer, maxTokens: nat, chunk: seq<string>)
  {
    chunk != [] ==> TotalCost(count, chunk) + |chunk| - 1 <= maxTokens
  }

  /** A chunk as `split_into_many` emits it: the sentences joined with ". ",
      then one more ".". */
  function RenderChunk(chunk: seq<string>): string
  {
    Join(chunk, ". ") + "."
  }

  /** The loop variables of `split_into_many`: the chunks closed so far (as
      their lists of sentences), the chunk being built and `tokens_so_far`. */
  datatype Progress = Progress(closed: seq<seq<string>>, chunk: seq<string>, tokensSoFar: nat)

  /** One iteration of the loop for a sentence costing `token`: close the
      current chunk when adding the sentence would pass the budget (even if
      the chunk is empty); then skip the sentence if it alone passes the
      budget, otherwise add it and charge `token + 1`. */
  function Step(st: Progress, sentence: string, token: nat, maxTokens: nat): Progress
  {
    var st' := if st.tokensSoFar + token > maxTokens then Progress(st.closed + [st.chunk], [], 0) else st;
    if token > maxTokens then st'
    else Progress(st'.closed, st'.chunk + [sentence], st'.tokensSoFar + token + 1)
  }

  /** The loop variables after the loop has consumed `sentences`. */
  function Run(count: Tokenizer, sentences: seq<string>, maxTokens: nat): Progress
  {
    if sentences == [] then Progress([], [], 0)
    else
      var n := |sentences| - 1;
      Step(Run(count, sentences[..n], maxTokens), sentences[n], SentenceCost(count, sentences[n]), maxTokens)
  }

  /** `text.split(". ")`. */
  function Sentences(text: string): seq<string>
  {
    Split(text, ". ")
  }

  /** The sentence lists of the chunks `split_into_many` returns: the chunks
      closed during the loop.  The chunk still open when the loop ends is not
      among them. */
  function ChunkGroups(count: Tokenizer, text: string, maxTokens: nat): seq<seq<string>>
  {
    Run(count, Sentences(text), maxTokens).closed
  }

  /** Renders each chunk of `groups`. */
  function RenderAll(groups: seq<seq<string>>): (r: seq<string>)
    ensures |r| == |groups| && forall k :: 0 <= k < |r| ==> r[k] == RenderChunk(groups[k])
  {
    if groups == [] then [] else RenderAll(groups[..|groups| - 1]) + [RenderChunk(groups[|groups| - 1])]
  }

  /** Closing one more chunk renders one more chunk. */
  lemma RenderAllSnoc(groups: seq<seq<string>>, chunk: seq<string>)
    ensures RenderAll(groups + [chunk]) == RenderAll(groups) + [RenderChunk(chunk)]
  {
    assert (groups + [chunk])[..|groups|] == groups;
  }

  /** The value `split_into_many(tokenizer, text, maxTokens)` returns. */
  function Chunks(count: Tokenizer, text: string, maxTokens: nat): seq<string>
  {
    RenderAll(ChunkGroups(count, text, maxTokens))
  }

  /** The loop state after one more sentence. */
  lemma RunSnoc(count: Tokenizer, sentences: seq<string>, i: nat, maxTokens: nat)
    requires i < |sentences|
    ensures Run(count, sentences[..i + 1], maxTokens) ==
            Step(Run(count, sentences[..i], maxTokens), sentences[i], SentenceCost(count, sentences[i]), maxTokens)
  {
    assert sentences[..i + 1][..i] == sentences[..i];
  }

  /** `split_into_many`, loop for loop. */
  method SplitIntoMany(count: Tokenizer, text: string, maxTokens: nat) returns (chunks: seq<string>)
    ensures chunks == Chunks(count, text, maxTokens)
  {
    var sentences := Sentences(text);
    var nTokens := seq(|sentences|, k requires 0 <= k < |sentences| => count(" " + sentences[k]));
    chunks := [];
    var tokensSoFar: nat := 0;
    var chunk: seq<string> := [];
    ghost var closed: seq<seq<string>> := [];
    var i := 0;
    while i < |sentences|
      invariant 0 <= i <= |sentences|
      invariant Run(count, sentences[..i], maxTokens) == Progress(closed, chunk, tokensSoFar)
      invariant chunks == RenderAll(closed)
    {
      var sentence, token := sentences[i], nTokens[i];
      assert token == SentenceCost(count, sentence);
      ghost var next := Step(Progress(closed, chunk, tokensSoFar), sentence, token, maxTokens);
      RunSnoc(count, sentences, i, maxTokens);
      if tokensSoFar + token > maxTokens {
        RenderAllSnoc(closed, chunk);
        chunks := chunks + [Join(chunk, ". ") + "."];
        closed := closed + [chunk];
        chunk := [];
        tokensSoFar := 0;
      }
      if token <= maxTokens {
        chunk := chunk + [sentence];
        tokensSoFar := tokensSoFar + token + 1;
      }
      assert Progress(closed, chunk, tokensSoFar) == next;
      i := i + 1;
    }
    assert sentences[..i] == sentences;
  }

  /** All sentences of the closed chunks, in order. */
  function Flatten(groups: seq<seq<string>>): seq<string>
  {
    if groups == [] then [] else Flatten(groups[..|groups| - 1]) + groups[|groups| - 1]
  }

  /** The sentences that fit the budget, in input order. */
  function FittingSentences(count: Tokenizer, sentences: seq<string>, maxTokens: nat): seq<string>
  {
    if sentences == [] then []
    else
      var n := |sentences| - 1;
      FittingSentences(count, sentences[..n], maxTokens) +
        (if Fits(count, maxTokens, sentences[n]) then [sentences[n]] else [])
  }

  /** What the loop keeps true: `tokens_so_far` is the cost of the open chunk
      plus one per sentence, every chunk respects the budget, and every
      sentence in any chunk fits the budget on its own. */
  ghost predicate Consistent(count: Tokenizer, maxTokens: nat, st: Progress)
  {
    && st.tokensSoFar == TotalCost(count, st.chunk) + |st.chunk|
    && WithinBudget(count, maxTokens, st.chunk)
    && (forall k :: 0 <= k < |st.chunk| ==> Fits(count, maxTokens, st.chunk[k]))
    && (forall g :: 0 <= g < |st.closed| ==> WithinBudget(count, maxTokens, st.closed[g]))
    && (forall g, k :: 0 <= g < |st.closed| && 0 <= k < |st.closed[g]| ==>
          Fits(count, maxTokens, st.closed[g][k]))
  }

  /** Closing the open chunk keeps the loop consistent. */
  lemma CloseConsistent(count: Tokenizer, maxTokens: nat, st: Progress)
    requires Consistent(count, maxTokens, st)
    ensures Consistent(count, maxTokens, Progress(st.closed + [st.chunk], [], 0))
  {
    var closed := st.closed + [st.chunk];
    assert forall g :: 0 <= g < |st.closed| ==> closed[g] == st.closed[g];
  }

  /** Adding a sentence that fits the budget and the room left keeps the
      loop consistent. */
  lemma AddConsistent(count: Tokenizer, maxTokens: nat, st: Progress, sentence: string)
    requires Consistent(count, maxTokens, st)
    requires SentenceCost(count, sentence) <= maxTokens
    requires st.tokensSoFar + SentenceCost(count, sentence) <= maxTokens
    ensures Consistent(count, maxTokens,
                       Progress(st.closed, st.chunk + [sentence], st.tokensSoFar + SentenceCost(count, sentence) + 1))
  {
    var c := st.chunk + [sentence];
    assert c[..|c| - 1] == st.chunk;
    assert TotalCost(count, c) == TotalCost(count, st.chunk) + SentenceCost(count, sentence);
  }

  lemma StepConsistent(count: Tokenizer, maxTokens: nat, st: Progress, sentence: string)
    requires Consistent(count, maxTokens, st)
    ensures Consistent(count, maxTokens, Step(st, sentence, SentenceCost(count, sentence), maxTokens))
  {
    var token := SentenceCost(count, sentence);
    var st' := st;
    if st.tokensSoFar + token > maxTokens {
      CloseConsistent(count, maxTokens, st);
      st' := Progress(st.closed + [st.chunk], [], 0);
    }
    if token <= maxTokens {
      AddConsistent(count, maxTokens, st', sentence);
    }
  }

  /** Every chunk `split_into_many` closes respects the budget, and no
      sentence costing more than the budget is in any chunk. */
  lemma {:induction false} RunConsistent(count: Tokenizer, sentences: seq<string>, maxTokens: nat)
    ensures Consistent(count, maxTokens, Run(count, sentences, maxTokens))
  {
    if sentences != [] {
      var n := |sentences| - 1;
      RunConsistent(count, sentences[..n], maxTokens);
      StepConsistent(count, maxTokens, Run(count, sentences[..n], maxTokens), sentences[n]);
    }
  }

  /** One iteration appends the sentence to the closed-then-open sentences
      exactly when it fits. */
  lemma StepCovers(st: Progress, sentence: string, token: nat, maxTokens: nat)
    ensures var st' := Step(st, sentence, token, maxTokens);
            Flatten(st'.closed) + st'.chunk ==
              Flatten(st.closed) + st.chunk + (if token <= maxTokens then [sentence] else [])
  {
    if st.tokensSoFar + token > maxTokens {
      var closed := st.closed + [st.chunk];
      assert closed[..|closed| - 1] == st.closed;
      assert Flatten(closed) == Flatten(st.closed) + st.chunk;
    }
  }

  /** The closed chunks followed by the open chunk are exactly the sentences
      that fit, in input order: sentences are never reordered or repeated,
      oversized ones are the only ones skipped, and the open chunk is what
      the return leaves behind. */
  lemma {:induction false} RunCoversFitting(count: Tokenizer, sentences: seq<string>, maxTokens: nat)
    ensures var st := Run(count, sentences, maxTokens);
            Flatten(st.closed) + st.chunk == FittingSentences(count, sentences, maxTokens)
  {
    if sentences != [] {
      var n := |sentences| - 1;
      RunCoversFitting(count, sentences[..n], maxTokens);
      StepCovers(Run(count, sentences[..n], maxTokens), sentences[n], SentenceCost(count, sentences[n]), maxTokens);
    }
  }

  /** The chunks closed earlier stay as they were: the closed list only grows. */
  lemma {:induction false} RunClosedGrows(count: Tokenizer, sentences: seq<string>, m: nat, maxTokens: nat)
    requires m <= |sentences|
    ensures var before := Run(count, sentences[..m], maxTokens).closed;
            var after := Run(count, sentences, maxTokens).closed;
            |before| <= |after| && after[..|before|] == before
    decreases |sentences|
  {
    if m < |sentences| {
      var n := |sentences| - 1;
      assert sentences[..n][..m] == sentences[..m];
      RunClosedGrows(count, sentences[..n], m, maxTokens);
    } else {
      assert sentences[..m] == sentences;
    }
  }

  /** Budget: for every emitted chunk of k sentences, the sentence costs plus
      k - 1 are at most the budget, and no sentence in it is oversized. */
  lemma ChunksWithinBudget(count: Tokenizer, text: string, maxTokens: nat)
    ensures forall g :: 0 <= g < |ChunkGroups(count, text, maxTokens)| ==>
              WithinBudget(count, maxTokens, ChunkGroups(count, text, maxTokens)[g])
    ensures forall g, k :: (0 <= g < |ChunkGroups(count, text, maxTokens)| &&
                            0 <= k < |ChunkGroups(count, text, maxTokens)[g]|) ==>
              SentenceCost(count, ChunkGroups(count, text, maxTokens)[g][k]) <= maxTokens
  {
    RunConsistent(count, Sentences(text), maxTokens);
  }

  /** Order: the sentences of the emitted chunks, concatenated, are a prefix
      of the fitting sentences of the text; what is missing from the end is
      exactly the chunk still open when the loop ended. */
  lemma ChunksArePrefixOfFitting(count: Tokenizer, text: string, maxTokens: nat)
    ensures var emitted := Flatten(ChunkGroups(count, text, maxTokens));
            var fitting := FittingSentences(count, Sentences(text), maxTokens);
            var open := Run(count, Sentences(text), maxTokens).chunk;
            |emitted| + |open| == |fitting| && emitted == fitting[..|emitted|] &&
            open == fitting[|emitted|..]
  {
    RunCoversFitting(count, Sentences(text), maxTokens);
  }

  /** The trailing chunk is lost: when the last sentence of the text fits the
      budget it is in the open chunk, so it is in no emitted chunk and the
      emitted sentences are strictly fewer than the fitting ones. */
  lemma TrailingSentenceDropped(count: Tokenizer, text: string, maxTokens: nat)
    requires Fits(count, maxTokens, Sentences(text)[|Sentences(text)| - 1])
    ensures var open := Run(count, Sentences(text), maxTokens).chunk;
            open != [] && open[|open| - 1] == Sentences(text)[|Sentences(text)| - 1]
    ensures |Flatten(ChunkGroups(count, text, maxTokens))| <
            |FittingSentences(count, Sentences(text), maxTokens)|
  {
    var s := Sentences(text);
    var n := |s| - 1;
    var st := Run(count, s[..n], maxTokens);
    assert Run(count, s, maxTokens) == Step(st, s[n], SentenceCost(count, s[n]), maxTokens);
    RunCoversFitting(count, s, maxTokens);
  }

  /** A first sentence over the budget closes the still empty chunk, so the
      first emitted chunk is the lone ".". */
  lemma FirstOversizedEmitsDot(count: Tokenizer, text: string, maxTokens: nat)
    requires !Fits(count, maxTokens, Sentences(text)[0])
    ensures |Chunks(count, text, maxTokens)| > 0 && Chunks(count, text, maxTokens)[0] == "."
  {
    var s := Sentences(text);
    assert s[..1][..0] == [];
    assert Run(count, s[..1], maxTokens).closed == [[]];
    RunClosedGrows(count, s, 1, maxTokens);
  }

  /** A text without ". " whose cost fits the budget gives no chunk at all. */
  lemma SingleFittingSentenceGivesNothing(count: Tokenizer, text: string, maxTokens: nat)
    requires !Contains(text, ". ") && count(" " + text) <= maxTokens
    ensures Chunks(count, text, maxTokens) == []
  {
    assert Find(text, ". ").None?;
    var s := Sentences(text);
    assert s == [text];
    assert s[..0] == [];
    assert Run(count, s, maxTokens) == Step(Progress([], [], 0), text, SentenceCost(count, text), maxTokens);
    assert ChunkGroups(count, text, maxTokens) == [];
  }

  /** `df.text.apply(len(tokenizer.encode(x)))` for the kept and split rows. */
  datatype TokenRow = TokenRow(text: string, nTokens: nat)

  /** What one input row contributes to `shortened`: nothing for a missing
      text, its chunks when it has more than `MAX_TOKENS` tokens, itself
      otherwise. */
  function Shorten(count: Tokenizer, text: Option<string>): seq<string>
  {
    match text
    case None => []
    case Some(t) => if count(t) > MaxTokens then Chunks(count, t, MaxTokens) else [t]
  }

  /** `shortened` after the row loop has consumed `texts`. */
  function Shortened(count: Tokenizer, texts: seq<Option<string>>): seq<string>
  {
    if texts == [] then []
    else Shortened(count, texts[..|texts| - 1]) + Shorten(count, texts[|texts| - 1])
  }

  /** The row loop of `tokenize_action`. */
  method ShortenRows(count: Tokenizer, texts: seq<Option<string>>) returns (shortened: seq<string>)
    ensures shortened == Shortened(count, texts)
  {
    shortened := [];
    var i := 0;
    while i < |texts|
      invariant 0 <= i <= |texts|
      invariant shortened == Shortened(count, texts[..i])
    {
      assert texts[..i + 1][..i] == texts[..i];
      match texts[i] {
        case None =>
        case Some(t) =>
          if count(t) > MaxTokens {
            var chunks := SplitIntoMany(count, t, MaxTokens);
            shortened := shortened + chunks;
          } else {
            shortened := shortened + [t];
          }
      }
      i := i + 1;
    }
    assert texts[..i] == texts;
  }

  /** Rows within the budget are kept whole: when no row is missing or over
      `MAX_TOKENS`, the output texts are the input texts. */
  lemma {:induction false} ShortenedKeepsSmallRows(count: Tokenizer, texts: seq<Option<string>>)
    requires forall k :: 0 <= k < |texts| ==> texts[k].Some? && count(texts[k].value) <= MaxTokens
    ensures |Shortened(count, texts)| == |texts|
    ensures forall k :: 0 <= k < |texts| ==> Shortened(count, texts)[k] == texts[k].value
  {
    if texts != [] {
      ShortenedKeepsSmallRows(count, texts[..|texts| - 1]);
    }
  }

  /** Every text in the output is either a whole input text within the budget
      or an emitted chunk, which ends with ".". */
  lemma {:induction false} ShortenedPieces(count: Tokenizer, texts: seq<Option<string>>)
    ensures forall e :: e in Shortened(count, texts) ==>
              (Some(e) in texts && count(e) <= MaxTokens) || (|e| > 0 && e[|e| - 1] == '.')
  {
    if texts != [] {
      var n := |texts| - 1;
      ShortenedPieces(count, texts[..n]);
      forall e | e in Shorten(count, texts[n])
        ensures (Some(e) in texts && count(e) <= MaxTokens) || (|e| > 0 && e[|e| - 1] == '.')
      {
        var t := texts[n].value;
        if count(t) > MaxTokens {
          var k :| 0 <= k < |Chunks(count, t, MaxTokens)| && Chunks(count, t, MaxTokens)[k] == e;
        }
      }
    }
  }

  /** How `tokenize_action` ends. */
  datatype TokenizeOutcome =
    | AlreadyTokenized
    | ProcessedMissing(message: string)
    | EncodeFailed  // `tokenizer.encode` raised on a missing (NaN) text
    | Written(path: string, rows: seq<TokenRow>)

  /** Some text of the processed CSV is missing: `read_csv` gives `NaN` for
      an empty cell. */
  predicate HasMissing(texts: seq<Option<string>>)
  {
    exists k :: 0 <= k < |texts| && texts[k].None?
  }

  /** `tokenize_action(url, rebuild)` for the domain `domain` of `url`; the
      existence of the two files and the texts of the processed CSV are
      inputs (file-system reads).  The `n_tokens` column is computed for every
      row before the row loop, and `encode` raises on a missing text, so the
      action fails there and the loop's `None` test is never reached. */
  method Tokenize(count: Tokenizer, domain: string, rebuild: bool, tokensExists: bool,
                  processedExists: bool, texts: seq<Option<string>>) returns (outcome: TokenizeOutcome)
    ensures tokensExists && !rebuild <==> outcome == AlreadyTokenized
    ensures outcome.ProcessedMissing? <==> (!tokensExists || rebuild) && !processedExists
    ensures outcome.EncodeFailed? <==> (!tokensExists || rebuild) && processedExists && HasMissing(texts)
    ensures outcome.ProcessedMissing? ==>
              outcome.message == "processed domain path for " + domain + " not found; run process first!"
    ensures outcome.Written? ==> outcome.path == "output/processed/" + domain + "-tokens.csv"
    ensures outcome.Written? ==>
              |outcome.rows| == |Shortened(count, texts)| &&
              forall k :: 0 <= k < |outcome.rows| ==>
                outcome.rows[k] == TokenRow(Shortened(count, texts)[k], count(Shortened(count, texts)[k]))
  {
    if tokensExists && !rebuild {
      return AlreadyTokenized;
    }
    if !processedExists {
      return ProcessedMissing("processed domain path for " + domain + " not found; run process first!");
    }
    if exists k :: 0 <= k < |texts| && texts[k].None? {
      return EncodeFailed;
    }
    var shortened := ShortenRows(count, texts);
    var rows := seq(|shortened|, k requires 0 <= k < |shortened| => TokenRow(shortened[k], count(shortened[k])));
    outcome := Written("output/processed/" + domain + "-tokens.csv", rows);
  }
}

=== FILE: training.dfy ===
/** The training action: its variant of `loadAndInspectDataset` for crawled
    blog posts (no time sort and no first cut), the file names it derives,
    and the embedding column it writes.  The CSV reader is a function `read`
    from a file name to its rows, already projected onto `url`, `title` and
    `text`. */
module Training {
  import opened Wrappers
  import opened Text
  import opened Seqs
  import opened Dataset
  import opened Embedding
  import opened Vectors

  /** `defaultDataFileName`. */
  const DefaultDataFileName := "blog_data"
  const EmbeddingsSuffix := "_with_embeddings.csv"

  /** A row after `select("url", "title", "text")`; `None` is a null cell. */
  datatype RawPost = RawPost(url: Option<string>, title: Option<string>, text: Option<string>)

  /** A row after `dropNulls` and the `combined` column. */
  datatype Post = Post(url: string, title: string, text: string, combined: string)

  /** A row of the result, with `n_tokens`. */
  datatype PreparedPost = PreparedPost(url: string, title: string, text: string, combined: string, nTokens: nat)

  predicate CompletePost(x: RawPost)
  {
    x.url.Some? && x.title.Some? && x.text.Some?
  }

  function CombinedPost(x: RawPost): Post
    requires CompletePost(x)
  {
    Post(x.url.value, x.title.value, x.text.value, Combine(x.title.value, x.text.value))
  }

  /** `dropNulls` followed by `withColumn(combined)`: one row per complete
      row, each with its `combined` column built by the template. */
  function CleanPosts(rows: seq<RawPost>): (r: seq<Post>)
    ensures forall i :: 0 <= i < |r| ==> r[i].combined == Combine(r[i].title, r[i].text)
  {
    if rows == [] then []
    else
      var init, last := rows[..|rows| - 1], rows[|rows| - 1];
      CleanPosts(init) + if CompletePost(last) then [CombinedPost(last)] else []
  }

  /** One cleaned row per complete row. */
  lemma {:induction false} CleanPostsLength(rows: seq<RawPost>)
    ensures |CleanPosts(rows)| == |Filter(rows, CompletePost)|
  {
    if rows != [] {
      CleanPostsLength(rows[..|rows| - 1]);
    }
  }

  /** Every complete row reaches the cleaned frame. */
  lemma {:induction false} CleanPostsKeepComplete(rows: seq<RawPost>, x: RawPost)
    requires x in rows && CompletePost(x)
    ensures CombinedPost(x) in CleanPosts(rows)
  {
    var n := |rows| - 1;
    if x != rows[n] {
      assert rows == rows[..n] + [rows[n]];
      CleanPostsKeepComplete(rows[..n], x);
    }
  }

  /** Every cleaned row comes from a complete row. */
  lemma {:induction false} CleanPostsFrom(rows: seq<RawPost>, y: Post)
    requires y in CleanPosts(rows)
    ensures exists i :: 0 <= i < |rows| && CompletePost(rows[i]) && CombinedPost(rows[i]) == y
  {
    var n := |rows| - 1;
    var init := rows[..n];
    if y in CleanPosts(init) {
      CleanPostsFrom(init, y);
      var i :| 0 <= i < |init| && CompletePost(init[i]) && CombinedPost(init[i]) == y;
      assert rows[i] == init[i];
    } else {
      assert CompletePost(rows[n]) && CombinedPost(rows[n]) == y;
    }
  }

  /** Cleaning keeps the input order: it works row by row. */
  lemma {:induction false} CleanPostsAppend(a: seq<RawPost>, b: seq<RawPost>)
    ensures CleanPosts(a + b) == CleanPosts(a) + CleanPosts(b)
  {
    if b != [] {
      var init := b[..|b| - 1];
      assert (a + b)[..|a + b| - 1] == a + init;
      CleanPostsAppend(a, init);
    } else {
      assert a + b == a;
    }
  }

  /** The `n_tokens` column of one row. */
  function CountedPost(x: Post, count: string -> nat): (r: PreparedPost)
    ensures r.nTokens == count(r.combined)
  {
    PreparedPost(x.url, x.title, x.text, x.combined, count(x.combined))
  }

  /** `n_tokens` of every row of a frame. */
  function CountPosts(rows: seq<Post>, count: string -> nat): seq<PreparedPost>
  {
    seq(|rows|, i requires 0 <= i < |rows| => CountedPost(rows[i], count))
  }

  predicate PostWithinBudget(x: PreparedPost)
  {
    WithinBudget(x.nTokens)
  }

  /** The rows, in order, that pass the token filter. */
  function Survivors(rows: seq<RawPost>, count: string -> nat): seq<PreparedPost>
  {
    Filter(CountPosts(CleanPosts(rows), count), PostWithinBudget)
  }

  /** A row within the token budget that counts the tokens of its own
      `combined` text, which follows the template, and comes from a complete
      input row. */
  ghost predicate PostPreparedFrom(y: PreparedPost, rows: seq<RawPost>, count: string -> nat)
  {
    && y.nTokens <= MaxTokens
    && y.nTokens == count(y.combined)
    && y.combined == Combine(y.title, y.text)
    && exists x :: x in rows && CompletePost(x) && CountedPost(CombinedPost(x), count) == y
  }

  /** Every row is prepared from a complete input row. */
  ghost predicate PostsPreparedFrom(r: seq<PreparedPost>, rows: seq<RawPost>, count: string -> nat)
  {
    forall i :: 0 <= i < |r| ==> PostPreparedFrom(r[i], rows, count)
  }

  /** A row that passes the token filter is a prepared complete input row. */
  lemma SurvivorPrepared(rows: seq<RawPost>, count: string -> nat, y: PreparedPost)
    requires y in Survivors(rows, count)
    ensures PostPreparedFrom(y, rows, count)
  {
    var clean := CleanPosts(rows);
    var counted := CountPosts(clean, count);
    var i :| 0 <= i < |counted| && counted[i] == y;
    assert clean[i] in clean;
    CleanPostsFrom(rows, clean[i]);
    var j :| 0 <= j < |rows| && CompletePost(rows[j]) && CombinedPost(rows[j]) == clean[i];
    assert CountedPost(CombinedPost(rows[j]), count) == y;
  }

  lemma SurvivorsPrepared(rows: seq<RawPost>, count: string -> nat)
    ensures PostsPreparedFrom(Tail(Survivors(rows, count), TopN), rows, count)
  {
    var f := Survivors(rows, count);
    var r := Tail(f, TopN);
    forall k | 0 <= k < |r|
      ensures PostPreparedFrom(r[k], rows, count)
    {
      var j := |f| - |r| + k;
      assert r[k] == f[j] && f[j] in f;
      SurvivorPrepared(rows, count, f[j]);
    }
  }

  /** `loadAndInspectDataset(dataPath, verbose)` of the training action: the
      last `top_n` rows that pass the token filter, or all of them when there
      are fewer, in input order; each within the token budget, counting the
      tokens of its own `combined` text, which follows the template, and each
      prepared from a complete input row. */
  function LoadBlogData(rows: seq<RawPost>, count: string -> nat): (r: seq<PreparedPost>)
    ensures var s := Survivors(rows, count);
            |r| == (if |s| <= TopN then |s| else TopN) && r == s[|s| - |r|..]
    ensures PostsPreparedFrom(r, rows, count)
  {
    SurvivorsPrepared(rows, count);
    Tail(Survivors(rows, count), TopN)
  }

  /** Counting tokens works row by row. */
  lemma CountPostsAppend(a: seq<Post>, b: seq<Post>, count: string -> nat)
    ensures CountPosts(a + b, count) == CountPosts(a, count) + CountPosts(b, count)
  {
  }

  /** The token filter of one input row: its prepared post when the row is
      complete and within the budget, nothing otherwise. */
  lemma SurvivorsSingle(x: RawPost, count: string -> nat)
    ensures Survivors([x], count) ==
              if CompletePost(x) && WithinBudget(count(CombinedPost(x).combined))
              then [CountedPost(CombinedPost(x), count)] else []
  {
    assert [x][..0] == [];
    assert CleanPosts([x]) == if CompletePost(x) then [CombinedPost(x)] else [];
    if CompletePost(x) {
      assert CountPosts([CombinedPost(x)], count) == [CountedPost(CombinedPost(x), count)];
      FilterSingle(CountedPost(CombinedPost(x), count), PostWithinBudget);
    }
  }

  /** The survivors of a concatenation are the survivors of each part, in
      order: the pipeline keeps the input order of the rows. */
  lemma SurvivorsAppend(a: seq<RawPost>, b: seq<RawPost>, count: string -> nat)
    ensures Survivors(a + b, count) == Survivors(a, count) + Survivors(b, count)
  {
    CleanPostsAppend(a, b);
    CountPostsAppend(CleanPosts(a), CleanPosts(b), count);
    FilterAppend(CountPosts(CleanPosts(a), count), CountPosts(CleanPosts(b), count), PostWithinBudget);
  }

  /** A complete row within the budget passes the token filter. */
  lemma FittingPostSurvives(rows: seq<RawPost>, count: string -> nat, x: RawPost)
    requires x in rows && CompletePost(x) && WithinBudget(count(CombinedPost(x).combined))
    ensures CountedPost(CombinedPost(x), count) in Survivors(rows, count)
  {
    var clean := CleanPosts(rows);
    var counted := CountPosts(clean, count);
    CleanPostsKeepComplete(rows, x);
    var i :| 0 <= i < |clean| && clean[i] == CombinedPost(x);
    assert counted[i] == CountedPost(CombinedPost(x), count);
    assert PostWithinBudget(counted[i]);
  }

  /** Without a time sort or a first cut, when no more than `top_n` rows pass
      the token filter every complete row within the budget is kept. */
  lemma AllFittingPostsKept(rows: seq<RawPost>, count: string -> nat)
    requires |Survivors(rows, count)| <= TopN
    ensures forall x :: x in rows && CompletePost(x) && WithinBudget(count(CombinedPost(x).combined))
              ==> CountedPost(CombinedPost(x), count) in LoadBlogData(rows, count)
  {
    assert LoadBlogData(rows, count) == Survivors(rows, count);
    forall x | x in rows && CompletePost(x) && WithinBudget(count(CombinedPost(x).combined))
      ensures CountedPost(CombinedPost(x), count) in LoadBlogData(rows, count)
    {
      FittingPostSurvives(rows, count, x);
    }
  }

  /** `fileName || defaultDataFileName`: a missing or empty name falls back to
      `blog_data`. */
  function OrDefault(fileName: Option<string>): (r: string)
    ensures r != ""
    ensures fileName.Some? && fileName.value != "" ==> r == fileName.value
    ensures fileName.None? || fileName.value == "" ==> r == DefaultDataFileName
  {
    match fileName
    case Some(name) => if name != "" then name else DefaultDataFileName
    case None => DefaultDataFileName
  }

  /** `.csv` occurs where it was appended. */
  lemma ContainsAppended(name: string, ext: string)
    ensures Contains(name + ext, ext)
  {
    assert OccursAt(name + ext, ext, |name|);
    ContainsIff(name + ext, ext);
  }

  /** `fileName.includes(".csv") ? fileName : fileName + ".csv"`: the name
      is kept when `.csv` occurs anywhere in it, and otherwise gets `.csv`
      appended; either way the result contains `.csv`. */
  function InputCsvName(name: string): (r: string)
    ensures Contains(r, ".csv")
    ensures Contains(name, ".csv") ==> r == name
    ensures !Contains(name, ".csv") ==> r == name + ".csv"
  {
    ContainsAppended(name, ".csv");
    if Contains(name, ".csv") then name else name + ".csv"
  }

  /** `includes`, not `endsWith`: a name with `.csv` in the middle is read as
      it is. */
  lemma InputCsvNameExample()
    ensures InputCsvName("posts.csv.bak") == "posts.csv.bak"
  {
    var name := "posts.csv.bak";
    assert name[5..9] == ".csv";
    assert OccursAt(name, ".csv", 5);
    ContainsIff(name, ".csv");
  }

  /** `fileName.replace(".csv", "") + "_with_embeddings.csv"`: the first
      `.csv` is removed, later ones stay, and the suffix is appended. */
  function EmbeddingsCsvName(name: string): (r: string)
    ensures |r| >= |EmbeddingsSuffix| && r[|r| - |EmbeddingsSuffix|..] == EmbeddingsSuffix
    ensures !Contains(name, ".csv") ==> r == name + EmbeddingsSuffix
    ensures Find(name, ".csv").Some? ==>
              var i := Find(name, ".csv").value;
              r == name[..i] + name[i + 4..] + EmbeddingsSuffix
  {
    ReplaceFirst(name, ".csv", "") + EmbeddingsSuffix
  }

  /** Appending `.csv` to a name without it and deriving the output name
      gives the name followed by the suffix. */
  lemma EmbeddingsOfInputName(name: string)
    requires !Contains(name, ".csv")
    ensures EmbeddingsCsvName(InputCsvName(name)) == name + EmbeddingsSuffix
  {
    FindAtJoint(name, ".csv", ".csv");
    assert (name + ".csv")[..|name|] == name;
    assert (name + ".csv")[|name| + 4..] == "";
  }

  /** Only the first `.csv` is removed. */
  lemma EmbeddingsCsvNameExample()
    ensures EmbeddingsCsvName("a.csv.csv") == "a.csv" + EmbeddingsSuffix
  {
    var name := "a.csv.csv";
    assert name[1..5] == ".csv" && name[0] != '.';
    ReplaceFirstAt(name, ".csv", "", 1);
    assert name[..1] + "" + name[5..] == "a.csv";
    assert ReplaceFirst(name, ".csv", "") == "a.csv";
  }

  /** How the training action ends. */
  datatype TrainingOutcome =
    | NotReady
    | Rag(input: string, output: string, column: seq<string>)

  /** `trainingAction({ verbose, fileName })`: only the `"rag"` choice
      prepares the data read from the input name and writes one embedding per
      prepared row under the output name; both names derive from `fileName`,
      or `blog_data` when it is missing or empty. */
  function TrainingAction(choice: string, fileName: Option<string>, read: string -> seq<RawPost>,
                          count: string -> nat, provider: string -> Vector, stringify: Vector -> string)
    : (r: TrainingOutcome)
    ensures r.Rag? <==> choice == "rag"
    ensures r.Rag? ==>
              && r.input == InputCsvName(OrDefault(fileName))
              && r.output == EmbeddingsCsvName(OrDefault(fileName))
              && |r.column| == |LoadBlogData(read(r.input), count)| <= TopN
              && forall i :: 0 <= i < |r.column| ==>
                   r.column[i] == stringify(GetEmbedding(provider, LoadBlogData(read(r.input), count)[i].combined))
  {
    if choice == "rag" then
      var name := OrDefault(fileName);
      var data := LoadBlogData(read(InputCsvName(name)), count);
      var combined := seq(|data|, i requires 0 <= i < |data| => data[i].combined);
      Rag(InputCsvName(name), EmbeddingsCsvName(name), EmbeddingColumn(combined, provider, stringify))
    else NotReady
  }
}

=== FILE: vectors.dfy ===
/** `dotProduct`, `norm` and `cosineSimilarity` over exact reals.  The square
    root is a parameter; only its defining property is assumed. */
module Vectors {
  import opened Wrappers

  type Vector = seq<real>

  /** A JavaScript number as a division can produce it: a value or `NaN`. */
  datatype Number = Finite(value: real) | NaN

  /** The left fold `reduce((sum, value, index) => sum + value * b[index], 0)`. */
  function Dot(a: Vector, b: Vector): real
    requires |a| == |b|
  {
    if a == [] then 0.0 else Dot(a[..|a| - 1], b[..|b| - 1]) + a[|a| - 1] * b[|b| - 1]
  }

  /** `dotProduct(a, b)`: throws unless the vectors have the same length. */
  function DotProduct(a: Vector, b: Vector): (r: Result<real>)
    ensures r.Failure? <==> |a| != |b|
    ensures r.Failure? ==> r.error == "Vectors must be the same length"
    ensures a == [] && b == [] ==> r == Success(0.0)
  {
    if |a| != |b| then Failure("Vectors must be the same length") else Success(Dot(a, b))
  }

  /** The fold `reduce((sum, value) => sum + value * value, 0)` inside `norm`. */
  function SumSquares(v: Vector): real
  {
    if v == [] then 0.0 else SumSquares(v[..|v| - 1]) + v[|v| - 1] * v[|v| - 1]
  }

  /** `sqrt` behaves as `Math.sqrt` on exact reals: it returns the
      non-negative square root of every non-negative real, and 0 for 0. */
  ghost predicate IsSqrt(sqrt: real -> real)
  {
    && sqrt(0.0) == 0.0
    && forall x :: 0.0 <= x ==> 0.0 <= sqrt(x) && sqrt(x) * sqrt(x) == x
  }

  /** A square is never negative, is zero for zero and non-zero otherwise. */
  lemma Square(x: real)
    ensures x * x >= 0.0
    ensures x == 0.0 ==> x * x == 0.0
    ensures x != 0.0 ==> x * x != 0.0
  {
    if x > 0.0 {
      assert x * x != 0.0;
    } else if x < 0.0 {
      assert x * x != 0.0;
    }
  }

  /** A product is zero exactly when a factor is. */
  lemma ProductZero(x: real, y: real)
    ensures x * y == 0.0 <==> x == 0.0 || y == 0.0
  {
    if x == 0.0 || y == 0.0 {
      assert x * y == 0.0;
    } else if x > 0.0 && y > 0.0 {
      assert x * y != 0.0;
    } else if x < 0.0 && y < 0.0 {
      assert x * y != 0.0;
    } else if x > 0.0 {
      assert x * y != 0.0;
    } else {
      assert x * y != 0.0;
    }
  }

  /** A product of non-negative reals is non-negative. */
  lemma MulNonNegative(u: real, v: real)
    requires u >= 0.0 && v >= 0.0
    ensures u * v >= 0.0
  {
  }

  /** Dividing out a positive factor keeps the sign. */
  lemma PositiveFactor(q: real, x: real)
    requires q > 0.0 && q * x >= 0.0
    ensures x >= 0.0
  {
  }

  /** The sum of squares is the dot product of a vector with itself. */
  lemma {:induction false} SumSquaresIsDot(v: Vector)
    ensures SumSquares(v) == Dot(v, v)
  {
    if v != [] {
      SumSquaresIsDot(v[..|v| - 1]);
    }
  }

  /** The sum of squares is never negative. */
  lemma {:induction false} SumSquaresNonNegative(v: Vector)
    ensures SumSquares(v) >= 0.0
  {
    if v != [] {
      SumSquaresNonNegative(v[..|v| - 1]);
      Square(v[|v| - 1]);
    }
  }

  /** A vector of zeros has sum of squares zero. */
  lemma {:induction false} SumSquaresOfZeros(v: Vector)
    ensures (forall i :: 0 <= i < |v| ==> v[i] == 0.0) ==> SumSquares(v) == 0.0
  {
    if v != [] && forall i :: 0 <= i < |v| ==> v[i] == 0.0 {
      var n := |v| - 1;
      assert forall i :: 0 <= i < n ==> v[..n][i] == v[i];
      SumSquaresOfZeros(v[..n]);
      Square(v[n]);
    }
  }

  /** `norm(v)`: its square is `dotProduct(v, v)`. */
  function Norm(v: Vector, sqrt: real -> real): (r: real)
    requires IsSqrt(sqrt)
    ensures r >= 0.0 && r * r == Dot(v, v)
    ensures (forall i :: 0 <= i < |v| ==> v[i] == 0.0) ==> r == 0.0
  {
    SumSquaresIsDot(v);
    SumSquaresNonNegative(v);
    SumSquaresOfZeros(v);
    sqrt(SumSquares(v))
  }

  /** The dot product is symmetric. */
  lemma {:induction false} DotSymmetric(a: Vector, b: Vector)
    requires |a| == |b|
    ensures Dot(a, b) == Dot(b, a)
  {
    if a != [] {
      DotSymmetric(a[..|a| - 1], b[..|b| - 1]);
    }
  }

  /** One more coordinate keeps the Cauchy-Schwarz inequality:
      `A = |a|^2`, `B = |b|^2`, `D = a.b`. */
  lemma CauchySchwarzStep(A: real, B: real, D: real, x: real, y: real)
    requires A >= 0.0 && B >= 0.0 && D * D <= A * B
    ensures (D + x * y) * (D + x * y) <= (A + x * x) * (B + y * y)
  {
    var gap := A * y * y + B * x * x - 2.0 * D * x * y;
    if A == 0.0 {
      Square(D);
      assert B * x * x >= 0.0;
    } else {
      assert A * gap == (A * y - D * x) * (A * y - D * x) + x * x * (A * B - D * D);
      Square(A * y - D * x);
      Square(x);
      MulNonNegative(x * x, A * B - D * D);
      PositiveFactor(A, gap);
    }
    assert (D + x * y) * (D + x * y) == D * D + 2.0 * D * x * y + x * y * x * y;
    assert (A + x * x) * (B + y * y) == A * B + A * y * y + B * x * x + x * x * y * y;
  }

  /** The Cauchy-Schwarz inequality `(a.b)^2 <= |a|^2 |b|^2`. */
  lemma {:induction false} CauchySchwarz(a: Vector, b: Vector)
    requires |a| == |b|
    ensures Dot(a, b) * Dot(a, b) <= SumSquares(a) * SumSquares(b)
  {
    if a != [] {
      var n := |a| - 1;
      CauchySchwarz(a[..n], b[..n]);
      SumSquaresNonNegative(a[..n]);
      SumSquaresNonNegative(b[..n]);
      CauchySchwarzStep(SumSquares(a[..n]), SumSquares(b[..n]), Dot(a[..n], b[..n]), a[n], b[n]);
    }
  }

  /** `(p + d)(p - d) = p^2 - d^2`. */
  lemma DiffSquares(p: real, d: real)
    ensures (p + d) * (p - d) == p * p - d * d
    ensures (p - d) * (p + d) == p * p - d * d
  {
  }

  /** A square bounded by the square of a non-negative `p` gives `|d| <= p`. */
  lemma AbsFromSquares(d: real, p: real)
    requires p >= 0.0 && d * d <= p * p
    ensures -p <= d <= p
  {
    DiffSquares(p, d);
    if p + d > 0.0 {
      PositiveFactor(p + d, p - d);
    }
    if p - d > 0.0 {
      PositiveFactor(p - d, p + d);
    }
  }

  /** Dividing and multiplying back by a non-zero real. */
  lemma DivideTimes(d: real, p: real)
    requires p != 0.0
    ensures (d / p) * p == d
  {
  }

  /** `p(1 - c)` and `p(c + 1)` expanded. */
  lemma Distribute(c: real, p: real)
    ensures p * (1.0 - c) == p - c * p
    ensures p * (c + 1.0) == c * p + p
  {
  }

  /** `|d| <= p` with `p` positive puts `d / p` in [-1, 1]. */
  lemma DivideBound(d: real, p: real)
    requires p > 0.0 && -p <= d <= p
    ensures -1.0 <= d / p <= 1.0
  {
    DivideTimes(d, p);
    Distribute(d / p, p);
    PositiveFactor(p, 1.0 - d / p);
    PositiveFactor(p, d / p + 1.0);
  }

  /** `(x y)^2 = x^2 y^2`. */
  lemma SquareOfProduct(x: real, y: real)
    ensures (x * y) * (x * y) == (x * x) * (y * y)
  {
  }

  /** `cosineSimilarity(a, b)`: the length-mismatch error of `dotProduct`
      propagates; a vector of zeros on either side makes the denominator 0
      and the result `NaN`; otherwise the result is the dot product over the
      product of the norms, and lies in [-1, 1]. */
  function CosineSimilarity(a: Vector, b: Vector, sqrt: real -> real): (r: Result<Number>)
    requires IsSqrt(sqrt)
    ensures r.Failure? <==> |a| != |b|
    ensures r.Failure? ==> r.error == "Vectors must be the same length"
    ensures r == Success(NaN) <==> |a| == |b| && (Norm(a, sqrt) == 0.0 || Norm(b, sqrt) == 0.0)
    ensures (|a| == |b| && ((forall i :: 0 <= i < |a| ==> a[i] == 0.0) || (forall i :: 0 <= i < |b| ==> b[i] == 0.0)))
              ==> r == Success(NaN)
    ensures r.Success? && r.value.Finite? ==>
              r.value.value * (Norm(a, sqrt) * Norm(b, sqrt)) == Dot(a, b)
              && -1.0 <= r.value.value <= 1.0
  {
    match DotProduct(a, b)
    case Failure(e) => Failure(e)
    case Success(dp) =>
      var denominator := Norm(a, sqrt) * Norm(b, sqrt);
      ProductZero(Norm(a, sqrt), Norm(b, sqrt));
      if denominator == 0.0 then Success(NaN)
      else
        var c := dp / denominator;
        CosineBound(a, b, sqrt, c);
        Success(Finite(c))
  }

  /** `SquareOfProduct` with the product and the squares named. */
  lemma SquareOfNamedProduct(x: real, y: real, p: real, sx: real, sy: real)
    requires p == x * y && sx == x * x && sy == y * y
    ensures p * p == sx * sy
  {
    calc {
      p * p;
      (x * y) * (x * y);
      { SquareOfProduct(x, y); }
      (x * x) * (y * y);
      sx * sy;
    }
  }

  /** The quotient of the dot product by a non-zero product of norms lies in
      [-1, 1]. */
  lemma CosineBound(a: Vector, b: Vector, sqrt: real -> real, c: real)
    requires IsSqrt(sqrt) && |a| == |b|
    requires Norm(a, sqrt) * Norm(b, sqrt) != 0.0
    requires c == Dot(a, b) / (Norm(a, sqrt) * Norm(b, sqrt))
    ensures -1.0 <= c <= 1.0
  {
    CauchySchwarz(a, b);
    SumSquaresIsDot(a);
    SumSquaresIsDot(b);
    SquareOfNamedProduct(Norm(a, sqrt), Norm(b, sqrt), Norm(a, sqrt) * Norm(b, sqrt), SumSquares(a), SumSquares(b));
    MulNonNegative(Norm(a, sqrt), Norm(b, sqrt));
    QuotientBound(c, Dot(a, b), Norm(a, sqrt) * Norm(b, sqrt));
  }

  /** A quotient `d / p` with `d * d <= p * p` and `p > 0` lies in [-1, 1]. */
  lemma QuotientBound(c: real, d: real, p: real)
    requires p > 0.0 && c == d / p && d * d <= p * p
    ensures -1.0 <= c <= 1.0
  {
    AbsFromSquares(d, p);
    DivideBound(d, p);
  }

  /** `cosineSimilarity(a, b) == cosineSimilarity(b, a)`. */
  lemma CosineSymmetric(a: Vector, b: Vector, sqrt: real -> real)
    requires IsSqrt(sqrt)
    ensures CosineSimilarity(a, b, sqrt) == CosineSimilarity(b, a, sqrt)
  {
    if |a| == |b| {
      DotSymmetric(a, b);
      assert Norm(a, sqrt) * Norm(b, sqrt) == Norm(b, sqrt) * Norm(a, sqrt);
    }
  }

  /** A vector's similarity with itself is 1, or `NaN` when its norm is 0. */
  lemma CosineSelf(v: Vector, sqrt: real -> real)
    requires IsSqrt(sqrt)
    ensures CosineSimilarity(v, v, sqrt) in {Success(NaN), Success(Finite(1.0))}
  {
    var r := CosineSimilarity(v, v, sqrt);
    if r != Success(NaN) {
      var c, n := r.value.value, Norm(v, sqrt);
      Square(n);
      assert (c - 1.0) * (n * n) == c * (n * n) - n * n;
      ProductZero(c - 1.0, n * n);
    }
  }

  /** Orthogonal unit vectors have similarity 0; a vector of zeros gives NaN;
      vectors of different lengths throw. */
  lemma CosineExamples(sqrt: real -> real)
    requires IsSqrt(sqrt)
    ensures CosineSimilarity([1.0, 0.0], [0.0, 1.0], sqrt) == Success(Finite(0.0))
    ensures CosineSimilarity([0.0, 0.0], [0.0, 1.0], sqrt) == Success(NaN)
    ensures CosineSimilarity([1.0], [0.0, 1.0], sqrt) == Failure("Vectors must be the same length")
  {
    assert Dot([1.0, 0.0], [0.0, 1.0]) == 0.0 by {
      assert [1.0, 0.0][..1] == [1.0] && [0.0, 1.0][..1] == [0.0];
      assert [1.0][..0] == [] && [0.0][..0] == [];
    }
    var x := Norm([1.0, 0.0], sqrt);
    var y := Norm([0.0, 1.0], sqrt);
    assert x != 0.0 by { assert [1.0, 0.0][0] != 0.0; }
    assert y != 0.0 by { assert [0.0, 1.0][1] != 0.0; }
    assert x * y != 0.0;
  }
}

=== FILE: wrappers.dfy ===
/** Failure-compatible wrappers shared by every module of the model. */
module Wrappers {

  /** A value that may be absent: JavaScript `null`/`undefined`, Python `None`,
      a polars null cell. */
  datatype Option<+T> = None | Some(value: T)

  /** The outcome of an operation that may throw: `Failure` carries the
      message of the exception the source raises. */
  datatype Result<+R> = Success(value: R) | Failure(error: string)
}
